=== FILE: README.md ===
# Motion Melody — gesture-to-parameter pipeline in Dafny

Motion Melody lets a webcam user "conduct" music with their hands. A hand
tracker reports 21 landmarks per hand. The app turns those landmarks into a
gesture label, a tempo, a volume and play/pause commands. This project models
that pipeline as pure functions over exact `real`s and `int`s and small
immutable state records, and proves its promises.

- `Landmarks` (`landmarks.dfy`): landmarks, a hand of 21 of them, and squared
  distances. Every distance threshold is compared squared; `ThresholdBySquares`
  shows this is the same test as comparing the distance itself.
- `HandDetection` (`hand_detection.dfy`): the gesture hook of the single-hand
  app. It classifies a hand as open, closed or other from the wrist-to-index-tip
  distance, and it records the wrist position.
- `ConductorApp` (`app.dfy`): the single-hand app. It maps the position to tempo
  and volume with clamps, and it starts or pauses the player only on a change
  of state.
- `MusicPlayer` (`music_player.dfy`): the player's state. This covers the
  clamped setters, the per-voice gains, the one-time initialisation, the
  playing flag, the timing of the repeating melody, and the ambient particles.
- `AirConductor` (`air_conductor.dfy`): the two-hand variant. The right
  fingertip's height, smoothed, sets the BPM with a hysteresis of 1 BPM. A
  debounced downstroke fires an accent. The left fingertip sets the volume in
  dB. A thumb-to-index spread toggles playback through the frame handler's
  own flag.
- `OrchestraPit` (`orchestra_pit.dfy`): the sparkle trail. New sparkles go into
  a bounded list, and a decay tick filters the expired ones out.
- `JsMath`, `JsStrings`, `Wrappers`: `Math.max/min` clamping, `Math.round`
  (as `Floor(v + 0.5)`), `String.prototype.includes`, and `Option`.

Inputs the source reads from the outside world are parameters:
- the clock readings (`performance.now()`, `Date.now()`);
- the `Math.random()` draws, each constrained to [0, 1);
- the handedness labels;
- the fingertip height remembered on a landmark object (`prevY`, where 0 counts
  as absent).

Behaviour of the code worth knowing:
- When no hand is detected, the gesture label is left unchanged. It is not
  reset to "no hand".
- The downstroke debounce is strict: more than 200 ms, not at least 200 ms.
- The two-hand BPM is not clamped. Over frames alone it stays within [60, 140]
  only because the mapping does (`SignalsStayInRange`). The tempo slider can set
  any value in [40, 160], and a value within 1 BPM of the mapped one survives
  the next right-hand frame (`SliderValueOutlivesFrame`). With the sliders in
  play, and while every fingertip height is in [0, 1], the tempo stays within
  [40, 160] and the volume within [−40, 0] dB (`SessionStaysInSliderRange`).
  The tracker's heights are not bounded by the code, and a fingertip above the
  frame (a negative height) maps beyond these ranges.
- In the single-hand app, the gesture handler also runs on mount and again
  whenever the playing flag changes, because that flag recreates the handler.
  On mount, "No gesture detected" at (0, 0) at once sets tempo 40 and volume
  1.0. After the Start button, a remembered "Closed Hand" label pauses again at
  once, and after Pause a remembered "Open Hand" label restarts
  (`HandlerRerunEffects`).
- In the single-hand app, the tempo slider's handler does not clamp the app's
  tempo. Only the player clamps it.

## Model

| member | source | states |
|---|---|---|
| `Landmarks.ThresholdBySquares` | src/hooks/useHandDetection.js:194-199 | For non-negative reals, comparing the squares against the squared threshold is the same test as comparing the distance itself. |
| `HandDetection.ClassifyByDistance` | src/hooks/useHandDetection.js:194-209 | Distance > 0.3 gives open. Distance < 0.15 gives closed. Every distance from 0.15 to 0.3, both ends included, gives other. So each hand gets exactly one label, and never both open and closed. |
| `HandDetection.Classify` | src/hooks/useHandDetection.js:194-209 | A hand is never classified as "no gesture". It is open exactly when the squared wrist-to-index-tip distance exceeds 0.3², and closed exactly when it is below 0.15². |
| `HandDetection.AnalyzeGesture` | src/hooks/useHandDetection.js:190-210 | Analysing a hand replaces both fields, whatever the earlier state. The gesture is the hand's classification, and the position is its wrist (landmark 0). |
| `HandDetection.OnlyWristAndIndexTipMatter` | src/hooks/useHandDetection.js:190-210 | Two hands that agree on landmarks 0 and 8 are analysed identically, whatever the earlier state was. |
| `HandDetection.OnHandResults` | src/hooks/useHandDetection.js:173-185 | With no hands the state is unchanged. Otherwise the last hand decides both the gesture and the position, and the position is that hand's wrist. |
| `HandDetection.InitialDetection` | src/hooks/useHandDetection.js:153-154 | The hook starts with "No gesture detected" at (0, 0). |
| `HandDetection.LabelMentions` | src/hooks/useHandDetection.js:203-209 | A label contains "Open Hand" exactly when it is the open gesture's label, and "Closed Hand" exactly when it is the closed gesture's label. |
| `JsStrings.IncludesIffOccurs` | src/App.jsx:123-125 | `s.includes(t)` holds exactly when t occurs in s at some offset k, that is, s, read from offset k, begins with t. |
| `JsStrings.IncludesOccurrence` | src/App.jsx:123-125 | When t is included in s, the lemma returns an offset at which t occurs. |
| `JsMath.Clamp` | src/utils/musicUtils.js:59 | The result lies in [lo, hi]. It equals the input inside the range and the nearer bound outside it. |
| `JsMath.Round` | src/air_conductor.jsx:148 | `Math.round` returns the integer n with v − 0.5 < n ≤ v + 0.5, so halves round up. The volume mapping at line 171 uses the same rounding. |
| `JsMath.RoundWithin` | src/air_conductor.jsx:148 | Rounding a value that lies between two integers gives a result between them. |
| `ConductorApp.VolumeFor` | src/App.jsx:115-116 | The volume is always in [0.1, 1]. It equals 1 − y for 0 ≤ y ≤ 0.9 and is 0.1 for y ≥ 0.9. |
| `ConductorApp.TempoFor` | src/App.jsx:119-120 | The tempo is always in [40, 180]. It equals 40 + 140·x for 0 ≤ x ≤ 1, and it sits at the bound outside that range. |
| `ConductorApp.MappingsMonotonic` | src/App.jsx:115-120 | Tempo is non-decreasing in x. Volume is non-increasing in y. |
| `ConductorApp.MappingCorners` | src/App.jsx:115-120 | Position (0, 1) gives tempo 40 and volume 0.1. Position (1, 0) gives tempo 180 and volume 1. |
| `ConductorApp.StartMusic` | src/App.jsx:130-135 | After a start both the app and the player are playing. The player holds the app's tempo and volume, clamped. |
| `ConductorApp.PauseMusic` | src/App.jsx:137-140 | After a pause the app is paused and the player is stopped. Nothing else changes. |
| `ConductorApp.TempoChange` | src/App.jsx:142-147 | The slider sets the app's tempo unclamped. The player gets it (clamped) only while playing. |
| `ConductorApp.SyncPlayer` | src/App.jsx:149-154 | While playing, the player is brought up to the app's tempo and volume. While paused, nothing changes. |
| `ConductorApp.GestureChange` | src/App.jsx:110-128 | The position, volume and tempo are always updated. A start is issued exactly for an "Open Hand" label while paused, and a pause exactly for a "Closed Hand" label while playing. Without a command the playing flag and the player are unchanged. |
| `ConductorApp.GestureEdges` | src/App.jsx:122-127 | On the hook's labels, open starts only when paused and closed pauses only when playing. Other, no gesture, or repeating the gesture that matches the current state issue nothing. |
| `ConductorApp.RunFollowsEdgeMachine` | src/App.jsx:122-127 | Over any run, the commands the app issues are exactly those of an edge machine over gestures alone. Hand positions never cause or suppress a command. |
| `ConductorApp.RunAlternates` | src/App.jsx:122-140 | Over any run, commands alternate: never two starts or two pauses in a row. The final playing flag is that of the last command. |
| `ConductorApp.RunPlayerFollowsHand` | src/App.jsx:110-154 | After a run of one or more gestures, each followed by the sync effect, the app holds the last hand position and its mapped tempo and volume. While playing, the player plays exactly that tempo and volume. |
| `ConductorApp.RunKeepsConsistency` | src/App.jsx:110-154 | Over any run, the app's playing flag stays equal to the player's, and the player stays valid. |
| `ConductorApp.OpenHeldThenClosed` | src/App.jsx:122-127 | From a paused state, Other, Open, Open, Open, Closed issues exactly one start followed by one pause. |
| `ConductorApp.HandlerRerunEffects` | src/components/Conductor.jsx:7-9 | On mount the handler sees "No gesture detected" at (0, 0), which replaces 120 BPM and volume 0.5 with 40 and 1.0 and issues no command. When it runs again after a manual start with a closed-hand label, it pauses. After a manual pause with an open-hand label, it starts. |
| `ConductorApp.HandlersKeepConsistency` | src/App.jsx:130-154 | Every handler keeps the app's playing flag equal to the player's, and keeps the player valid. |
| `MusicPlayer.New` | src/utils/musicUtils.js:2-9 | A new player has no audio context and no voices, is not playing, and has tempo 120 and volume 0.5 inside the clamp ranges. |
| `MusicPlayer.Init` | src/utils/musicUtils.js:11-30 | Initialisation creates the audio context and appends the three voices and their gains. Tempo, volume and the playing flag are kept. Run on a valid player without a context, it gives a valid player. |
| `MusicPlayer.Voices` | src/utils/musicUtils.js:15-27 | The three voices are sine, triangle and sawtooth, at 220·(i + 1) Hz. |
| `MusicPlayer.VoiceGains` | src/utils/musicUtils.js:15-27 | Voice i gets the volume scaled by 1 − 0.3·i. |
| `MusicPlayer.Start` | src/utils/musicUtils.js:32-49 | After a start the player is playing and has an audio context. Voices are created only when there was no context. Validity is preserved. |
| `MusicPlayer.Stop` | src/utils/musicUtils.js:51-56 | With an audio context the player stops playing. Without one, nothing changes. |
| `MusicPlayer.SetTempo` | src/utils/musicUtils.js:58-60 | The stored tempo is in [40, 180], equals the request inside that range, and is the nearer bound outside it. Nothing else changes. |
| `MusicPlayer.SetVolume` | src/utils/musicUtils.js:62-69 | The stored volume is in [0.1, 1] and equals the request inside that range. Gain i becomes volume·(1 − 0.3·i). Nothing else changes. |
| `MusicPlayer.SetTempoIdempotent` | src/utils/musicUtils.js:58-60 | Storing the stored tempo again changes nothing. |
| `MusicPlayer.SetVolumeIdempotent` | src/utils/musicUtils.js:62-69 | Storing the stored volume again changes nothing. |
| `MusicPlayer.GainsDecrease` | src/utils/musicUtils.js:62-68 | Once the voices exist, their gains are positive and strictly decreasing, and the first equals the volume. |
| `MusicPlayer.StartIdempotent` | src/utils/musicUtils.js:32-49 | Starting a started player changes nothing. |
| `MusicPlayer.StopIdempotent` | src/utils/musicUtils.js:51-56 | Stopping a stopped player changes nothing. |
| `MusicPlayer.InitAtMostOnce` | src/utils/musicUtils.js:11-33 | There are no voices before the first start and exactly three after any positive number of starts. |
| `MusicPlayer.ScheduleNotes` | src/utils/musicUtils.js:71-98 | Nothing is scheduled unless the player is playing with a context. Otherwise there are eight slots, starting now and a half beat (30 / tempo s) apart. In each slot voice k plays the note times (k + 1)/2. The next pass is due 240000 / tempo ms later. |
| `MusicPlayer.ScheduleTiming` | src/utils/musicUtils.js:80-97 | The notes of a pass play in strictly increasing time order. The last note's half beat ends exactly when the next pass is due. |
| `MusicPlayer.RescheduleDelayBounds` | src/utils/musicUtils.js:93-97 | For a clamped tempo the reschedule delay lies in [1333⅓, 6000] ms and does not grow as the tempo rises. |
| `MusicPlayer.CreateMusicParticles` | src/utils/musicUtils.js:101-115 | There are exactly `count` particles, with ids 0..count−1 in order, left in [0, 100), delay in [0, 2) and duration in [1, 1 + 2·tempo/120). |
| `AirConductor.Smooth` | src/air_conductor.jsx:143-145 | The first reading seeds the smoother, so the smoothed value is the reading itself. After that the smoothed value lies between the previous value and the reading. |
| `AirConductor.SmoothConverges` | src/air_conductor.jsx:145 | A constant reading is a fixed point. Any other value moves 15% of the way to the reading at each step. |
| `AirConductor.MappedBpm` | src/air_conductor.jsx:147-148 | For a height in [0, 1] the mapped BPM lies in [60, 140]. |
| `AirConductor.MappedBpmMonotonic` | src/air_conductor.jsx:148 | A lower hand never maps to a faster tempo. |
| `AirConductor.NextBpm` | src/air_conductor.jsx:149 | The BPM changes only when it differs from the mapped value by more than 1, and then becomes that value. Either way it ends within 1 BPM of it. |
| `AirConductor.MappedVolume` | src/air_conductor.jsx:170-172 | For a height in [0, 1] the mapped volume lies in [−30, 0] dB. |
| `AirConductor.NoAccentWithoutHistory` | src/air_conductor.jsx:151-153 | A fingertip with no remembered height (or a remembered 0) has velocity 0 and never fires an accent. |
| `AirConductor.Velocity` | src/air_conductor.jsx:151-153 | Without a remembered height (or with a remembered 0) the velocity is 0. Otherwise it is the remembered height minus the current one. It is negative exactly when the fingertip has moved down. |
| `AirConductor.RightHand` | src/air_conductor.jsx:140-164 | A right hand leaves the left signal, the volume and playback alone. It ends within 1 BPM of the mapped tempo. It fires an accent exactly on a downstroke faster than −0.03 more than 200 ms after the last one. |
| `AirConductor.LeftHand` | src/air_conductor.jsx:166-173 | A left hand leaves the tempo, the accents and playback alone, and sets the volume to the mapped dB of its smoothed height. |
| `AirConductor.Toggle` | src/air_conductor.jsx:175-192 | The handler's flag becomes "spread above 0.12". A start is emitted exactly when the flag rises and a stop exactly when it falls. Otherwise nothing changes. |
| `AirConductor.ToggleByDistance` | src/air_conductor.jsx:176-178 | In terms of the spread d, a hand is open exactly when d > 0.12, so a spread of exactly 0.12 is closed. |
| `AirConductor.OnHand` | src/air_conductor.jsx:136-192 | Only right hands touch the tempo and the accents. Only left hands touch the volume. |
| `AirConductor.OnResults` | src/air_conductor.jsx:119-193 | A frame without hands changes nothing. A frame of left hands only leaves the tempo, the right signal and the accents alone. A frame of right hands only leaves the volume and the left signal alone. |
| `AirConductor.OnHandAccents` | src/air_conductor.jsx:140-163 | One hand fires an accent, at its clock reading, exactly when it is a right hand making a debounced downstroke. |
| `AirConductor.AccentsSpaced` | src/air_conductor.jsx:156-162 | Over any sequence of hand readings, each accent comes strictly more than 200 ms after the previous one, and the state remembers the last one. |
| `AirConductor.OnResultsPair` | src/air_conductor.jsx:121-123 | With two hands in one frame, the second hand is handled in the state the first left. The frame's events are the first hand's followed by the second's. |
| `AirConductor.DebounceScenario` | src/air_conductor.jsx:156-162 | Two qualifying downstrokes 50 ms apart fire one accent. The same two 250 ms apart fire two. |
| `AirConductor.TogglesAlternate` | src/air_conductor.jsx:178-192 | Over any sequence of hand readings, starts and stops strictly alternate, beginning with a start from a stopped flag. The flag records the last of them. |
| `AirConductor.SignalsStayInRange` | src/air_conductor.jsx:143-172 | Over frames alone, without slider input: while every fingertip height is in [0, 1], both smoothed heights stay in [0, 1]. The BPM stays in [60, 140] and the volume in [−30, 0] dB. |
| `AirConductor.FirstReadingSeeds` | src/air_conductor.jsx:144-145 | After the first right-hand reading the smoothed height is that reading. |
| `AirConductor.SteadyHandScenario` | src/air_conductor.jsx:143-149 | A right fingertip held at height 0.5 for three frames from the start keeps the smoothed height at 0.5 and sets 100 BPM. |
| `AirConductor.ManualToggle` | src/air_conductor.jsx:258-266 | The button flips the transport and the displayed flag. It leaves the frame handler's own flag alone, and the tempo, the volume, both smoothed heights and the last accent time as well. |
| `AirConductor.ManualPauseUnseenByPalm` | src/air_conductor.jsx:175-192 | Say the palm started playback and the button then paused it. An open palm then does not restart playback. |
| `AirConductor.SetBpm` | src/air_conductor.jsx:292-294 | The tempo slider sets the BPM to the given value in [40, 160], unclamped and without hysteresis. Nothing else changes. |
| `AirConductor.SetVolumeDb` | src/air_conductor.jsx:298-300 | The volume slider sets the dB volume to the given value in [−40, 0]. Nothing else changes. |
| `AirConductor.SliderValueOutlivesFrame` | src/air_conductor.jsx:149 | A slider tempo of 59, followed by a right fingertip at the bottom of the frame (mapped to 60), stays 59. That is below the mapping's range. |
| `AirConductor.RightHandOverridesSlider` | src/air_conductor.jsx:143-149 | Whatever the slider set, a right-hand frame leaves the tempo within 1 BPM of the mapped value. |
| `AirConductor.FrameKeepsOrMaps` | src/air_conductor.jsx:143-172 | With fingertip heights in [0, 1], a frame either keeps the tempo and the volume or sets them to mapped values in [60, 140] BPM and [−30, 0] dB. |
| `AirConductor.SessionStaysInSliderRange` | src/air_conductor.jsx:99-105 | Over any mix of frames, slider moves and button presses, while every fingertip height is in [0, 1], the tempo pushed to the transport stays in [40, 160] BPM and the volume pushed to the gain stays in [−40, 0] dB. |
| `OrchestraPit.NewSparkle` | src/components/OrchestraPit.jsx:136-143 | A new sparkle has opacity 1, life 100, position 100 times the hand position, and size in [5, 15). |
| `OrchestraPit.LastKept` | src/components/OrchestraPit.jsx:145 | The result is the last min(20, n) elements of the list. |
| `OrchestraPit.AddSparkle` | src/components/OrchestraPit.jsx:129-147 | A sparkle is added only when both hand coordinates are strictly positive. The list is then the last ≤ 20 previous sparkles followed by the new one, so it stays within 21. |
| `OrchestraPit.Tick` | src/components/OrchestraPit.jsx:150-160 | A tick never lengthens the list, and every sparkle left has positive life. |
| `OrchestraPit.Decay` | src/components/OrchestraPit.jsx:152-157 | One tick keeps a sparkle's identity and place and takes 5 from its life. Positive opacity and size shrink strictly but stay positive. |
| `OrchestraPit.TickDistributes` | src/components/OrchestraPit.jsx:152-158 | A tick acts sparkle by sparkle and keeps the order: ticking a concatenation is concatenating the ticks. |
| `OrchestraPit.TickKeepsExactlySurvivors` | src/components/OrchestraPit.jsx:152-158 | A sparkle is in the result iff it is the decay (life − 5, opacity × 0.95, size × 0.98) of one whose decremented life is still positive. |
| `OrchestraPit.LoneSparkleLifetime` | src/components/OrchestraPit.jsx:152-158 | A lone sparkle survives n ticks exactly while its life minus 5·n is positive, and is then its n-fold decay. |
| `OrchestraPit.FreshSparkleLifetime` | src/components/OrchestraPit.jsx:142-158 | A new sparkle is still present after 19 ticks and gone after the 20th. |

## Left out

- Camera capture, `getUserMedia`, the hand-tracking model, CDN imports and all canvas drawing are I/O or an external model. The model starts from the landmarks the tracker delivers. The early return when the canvas or drawing helpers are missing is also left out.
- The tracker always delivers 21 landmarks, and `Hand` fixes that length. A list shorter than 9 would make the source throw. A list of 9 to 20 would be analysed normally, since only landmarks 0, 4 and 8 are read. Neither case is modelled. The optional depth coordinate `z` is never read and is not kept.
- Tone.js and the Web Audio graph are a third-party audio engine. This covers oscillator start, context resume and suspend, frequency automation, loops and the accent synth. `ScheduleNotes` returns the schedule instead of applying it. Accents, starts and stops are returned as events.
- `setTimeout` and `setInterval` are timers. One reschedule is `ScheduleNotes`, and one animation step is `Tick`. The reschedule callback's `isPlaying` check is the same guard `ScheduleNotes` already has.
- Each `start` call launches another scheduling chain in the source. The model keeps only the player state, which a repeated start leaves unchanged (`StartIdempotent`).
- React scheduling is not modelled. The handlers read tempo and volume through stale closures; the model starts the player with the freshly computed values. The sync effect (`SyncPlayer`) sets those same values right after in the source.
- The write of `_prevY` onto the landmark object is not modelled. The remembered height is an explicit input of each reading instead, and nothing is assumed to persist across frames.
- The orchestra pit's note glyphs and particle refresh effects are presentation. `createMusicParticles` itself is modelled.
- The `if (gainNode)` and `oscillator.frequency` guards are always true in the source and are not modelled.
- IEEE-754 rounding is not modelled. Arithmetic is exact on `real`, so the boundary cases are exact too (for example 240000 / tempo).
- src/components/Conductor.jsx and src/components/Controls.jsx forward values and render. The effect that calls the gesture handler is not modelled as a step of its own. What its timing causes is stated in `HandlerRerunEffects`. The commented-out copies at the head of App.jsx, useHandDetection.js and OrchestraPit.jsx are not live code.

=== FILE: air_conductor.dfy ===
/** The two-hand "Air-Conductor" variant: the right index fingertip's height
    sets the tempo and a sharp downward flick fires an accent, the left index
    fingertip's height sets the volume in decibels, and the thumb-to-index
    spread of any hand starts or stops playback. Heights are smoothed
    exponentially before they are mapped. */
module AirConductor {
  import opened JsMath
  import opened Wrappers
  import opened Landmarks

  datatype Handedness = Left | Right

  /** One hand of one frame: its handedness, its landmarks, the fingertip
      height remembered on the landmark object (absent, and also treated as
      absent when it is 0), and the clock reading taken for it in ms. */
  datatype HandReading = HandReading(handedness: Handedness, hand: Hand, prevY: Option<real>, now: real)

  datatype Event = Accent(at: real) | StartMusic | StopMusic

  /** The smoothed fingertip heights, the displayed tempo and volume, the
      time of the last accent, the frame handler's own running flag, the
      displayed running flag, and whether the transport is started. */
  datatype ConductorState = ConductorState(
    rightY: Option<real>,
    leftY: Option<real>,
    bpm: int,
    volumeDb: int,
    lastDownstroke: real,
    runningLocal: bool,
    running: bool,
    transportStarted: bool)

  const Initial: ConductorState := ConductorState(None, None, 90, 0, 0.0, false, false, false)

  /** Weight kept by the smoothed value at each update. */
  const Retain: real := 0.85
  /** Weight given to the new reading. */
  const Blend: real := 0.15

  /** Minimum time between two accents, in ms. */
  const DebounceMs: real := 200.0
  /** Fingertip velocity (upwards positive) below which a flick is a downstroke. */
  const DownstrokeVelocity: real := -0.03
  /** Thumb-to-index-tip distance above which a hand counts as open. */
  const OpenSpread: real := 0.12

  function Min(a: real, b: real): real { if a <= b then a else b }
  function Max(a: real, b: real): real { if a <= b then b else a }

  /** One smoothing step, seeded from the reading itself when there is no
      previous value: the result lies between the previous value and the
      reading. */
  function Smooth(prev: Option<real>, raw: real): (r: real)
    ensures prev.None? ==> r == raw
    ensures prev.Some? ==> Min(prev.value, raw) <= r <= Max(prev.value, raw)
  {
    var seed := if prev.Some? then prev.value else raw;
    seed * Retain + raw * Blend
  }

  /** A steady reading is a fixed point of the smoother, and any other
      smoothed value moves 15% of the way towards the reading. */
  lemma SmoothConverges(prev: real, raw: real)
    ensures Smooth(Some(raw), raw) == raw
    ensures Smooth(Some(prev), raw) - raw == Retain * (prev - raw)
  {
  }

  /** Tempo for a smoothed height: top of the frame 140 BPM, bottom 60. */
  function MappedBpm(s: real): (b: int)
    ensures 0.0 <= s <= 1.0 ==> 60 <= b <= 140
  {
    var v := 60.0 + (1.0 - s) * 80.0;
    assert 0.0 <= s <= 1.0 ==> 60 <= Round(v) <= 140 by {
      if 0.0 <= s <= 1.0 { RoundWithin(v, 60, 140); }
    }
    Round(v)
  }

  /** A lower hand never gives a faster tempo. */
  lemma MappedBpmMonotonic(s: real, s': real)
    requires s <= s'
    ensures MappedBpm(s') <= MappedBpm(s)
  {
  }

  /** The tempo only follows the mapped value when they differ by more
      than 1 BPM, so afterwards it is within 1 BPM of the mapped value. */
  function NextBpm(prev: int, mapped: int): (r: int)
    ensures Abs(r - mapped) <= 1
    ensures r == prev || r == mapped
    ensures r != prev ==> Abs(prev - mapped) > 1
    ensures Abs(prev - mapped) > 1 ==> r == mapped
  {
    if Abs(prev - mapped) > 1 then mapped else prev
  }

  /** Volume in dB for a smoothed height: top 0 dB, bottom -30 dB. */
  function MappedVolume(s: real): (db: int)
    ensures 0.0 <= s <= 1.0 ==> -30 <= db <= 0
  {
    var v := -30.0 + (1.0 - s) * 30.0;
    assert 0.0 <= s <= 1.0 ==> -30 <= Round(v) <= 0 by {
      if 0.0 <= s <= 1.0 { RoundWithin(v, -30, 0); }
    }
    Round(v)
  }

  /** Upward velocity of the fingertip since the remembered height; a hand
      with nothing remembered (or 0) has velocity 0. */
  function Velocity(prevY: Option<real>, y: real): (v: real)
    ensures prevY.None? || prevY.value == 0.0 ==> v == 0.0
    ensures prevY.Some? && prevY.value != 0.0 ==> y + v == prevY.value
    ensures v < 0.0 <==> prevY.Some? && prevY.value != 0.0 && y > prevY.value
  {
    var from := if prevY.None? || prevY.value == 0.0 then y else prevY.value;
    from - y
  }

  /** A downstroke fires when the fingertip drops faster than the threshold
      and strictly more than 200 ms have passed since the last one. */
  predicate Downstroke(vel: real, now: real, last: real) {
    vel < DownstrokeVelocity && now - last > DebounceMs
  }

  /** A hand whose fingertip height is not remembered never fires an accent. */
  lemma NoAccentWithoutHistory(y: real, now: real, last: real)
    ensures !Downstroke(Velocity(None, y), now, last)
    ensures !Downstroke(Velocity(Some(0.0), y), now, last)
  {
  }

  /** The state after one hand and the events it caused, in order. */
  datatype Step = Step(state: ConductorState, events: seq<Event>)

  /** Right hand: smooth the fingertip height, move the tempo, and fire an
      accent on a debounced downstroke. */
  function RightHand(st: ConductorState, r: HandReading): (s: Step)
    ensures s.state.leftY == st.leftY && s.state.volumeDb == st.volumeDb
    ensures s.state.runningLocal == st.runningLocal && s.state.running == st.running
    ensures s.state.transportStarted == st.transportStarted
    ensures s.state.rightY == Some(Smooth(st.rightY, r.hand[IndexTip].y))
    ensures Abs(s.state.bpm - MappedBpm(s.state.rightY.value)) <= 1
    ensures s.events == [] || s.events == [Accent(r.now)]
    ensures s.events == [Accent(r.now)] <==> Downstroke(Velocity(r.prevY, r.hand[IndexTip].y), r.now, st.lastDownstroke)
    ensures s.state.lastDownstroke == (if s.events == [] then st.lastDownstroke else r.now)
  {
    var y := r.hand[IndexTip].y;
    var smoothed := Smooth(st.rightY, y);
    var moved := st.(rightY := Some(smoothed), bpm := NextBpm(st.bpm, MappedBpm(smoothed)));
    if Downstroke(Velocity(r.prevY, y), r.now, st.lastDownstroke) then
      Step(moved.(lastDownstroke := r.now), [Accent(r.now)])
    else
      Step(moved, [])
  }

  /** Left hand: smooth the fingertip height and map it to decibels. */
  function LeftHand(st: ConductorState, r: HandReading): (s: ConductorState)
    ensures s.rightY == st.rightY && s.bpm == st.bpm && s.lastDownstroke == st.lastDownstroke
    ensures s.runningLocal == st.runningLocal && s.running == st.running
    ensures s.transportStarted == st.transportStarted
    ensures s.leftY == Some(Smooth(st.leftY, r.hand[IndexTip].y))
    ensures s.volumeDb == MappedVolume(s.leftY.value)
  {
    var smoothed := Smooth(st.leftY, r.hand[IndexTip].y);
    st.(leftY := Some(smoothed), volumeDb := MappedVolume(smoothed))
  }

  /** `startMusic` / `stopMusic`: the transport follows. */
  function SetTransport(st: ConductorState, started: bool): ConductorState {
    st.(transportStarted := started)
  }

  /** Palm toggle of any hand: a spread above 0.12 starts playback unless
      the handler already started it; a spread of 0.12 or less stops it
      unless the handler already stopped it. */
  function Toggle(st: ConductorState, hand: Hand): (s: Step)
    ensures s.state.runningLocal == (SquaredDistance(hand[ThumbTip], hand[IndexTip]) > OpenSpread * OpenSpread)
    ensures s.events == [StartMusic] <==> !st.runningLocal && s.state.runningLocal
    ensures s.events == [StopMusic] <==> st.runningLocal && !s.state.runningLocal
    ensures s.events == [] <==> st.runningLocal == s.state.runningLocal
    ensures s.events != [] ==> s.state.running == s.state.runningLocal == s.state.transportStarted
    ensures s.events == [] ==> s.state == st
    ensures s.state.rightY == st.rightY && s.state.leftY == st.leftY
    ensures s.state.bpm == st.bpm && s.state.volumeDb == st.volumeDb
    ensures s.state.lastDownstroke == st.lastDownstroke
  {
    if SquaredDistance(hand[ThumbTip], hand[IndexTip]) > OpenSpread * OpenSpread then
      if !st.runningLocal then
        Step(SetTransport(st, true).(runningLocal := true, running := true), [StartMusic])
      else Step(st, [])
    else
      if st.runningLocal then
        Step(SetTransport(st, false).(runningLocal := false, running := false), [StopMusic])
      else Step(st, [])
  }

  /** For the spread `d` itself: open exactly when `d > 0.12`, so a spread
      of exactly 0.12 is closed. */
  lemma ToggleByDistance(st: ConductorState, hand: Hand, d: real)
    requires d >= 0.0 && d * d == SquaredDistance(hand[ThumbTip], hand[IndexTip])
    ensures Toggle(st, hand).state.runningLocal <==> d > 0.12
  {
    ThresholdBySquares(d, OpenSpread);
  }

  /** One hand: its side's update, then the palm toggle. */
  function OnHand(st: ConductorState, r: HandReading): (s: Step)
    ensures r.handedness == Left ==> s.state.rightY == st.rightY && s.state.bpm == st.bpm
    ensures r.handedness == Left ==> s.state.lastDownstroke == st.lastDownstroke
    ensures r.handedness == Left ==> forall e :: e in s.events ==> !e.Accent?
    ensures r.handedness == Right ==> s.state.leftY == st.leftY && s.state.volumeDb == st.volumeDb
  {
    var side := if r.handedness == Right then RightHand(st, r) else Step(LeftHand(st, r), []);
    var toggle := Toggle(side.state, r.hand);
    Step(toggle.state, side.events + toggle.events)
  }

  /** `onResults`: every hand of the frame in order. A frame without hands
      changes nothing, a frame of left hands only leaves the tempo and the
      accents alone, and a frame of right hands only leaves the volume
      alone. */
  function OnResults(st: ConductorState, readings: seq<HandReading>): (s: Step)
    ensures |readings| == 0 ==> s == Step(st, [])
    ensures (forall i :: 0 <= i < |readings| ==> readings[i].handedness == Left) ==>
      s.state.rightY == st.rightY && s.state.bpm == st.bpm && s.state.lastDownstroke == st.lastDownstroke
      && forall e :: e in s.events ==> !e.Accent?
    ensures (forall i :: 0 <= i < |readings| ==> readings[i].handedness == Right) ==>
      s.state.leftY == st.leftY && s.state.volumeDb == st.volumeDb
    decreases |readings|
  {
    if |readings| == 0 then Step(st, [])
    else
      var first := OnHand(st, readings[0]);
      var rest := OnResults(first.state, readings[1..]);
      Step(rest.state, first.events + rest.events)
  }

  /** Accents in `events` are each strictly more than 200 ms after the
      previous one, the first after `last`. */
  predicate SpacedAfter(last: real, events: seq<Event>)
    decreases |events|
  {
    |events| == 0 ||
    (if events[0].Accent? then events[0].at - last > DebounceMs && SpacedAfter(events[0].at, events[1..])
     else SpacedAfter(last, events[1..]))
  }

  /** The time of the last accent in `events`, or `last` if there is none. */
  function LastAccent(last: real, events: seq<Event>): real
    decreases |events|
  {
    if |events| == 0 then last
    else LastAccent(if events[0].Accent? then events[0].at else last, events[1..])
  }

  lemma {:induction false} SpacedConcat(last: real, a: seq<Event>, b: seq<Event>)
    ensures SpacedAfter(last, a + b) <==> SpacedAfter(last, a) && SpacedAfter(LastAccent(last, a), b)
    ensures LastAccent(last, a + b) == LastAccent(LastAccent(last, a), b)
    decreases |a|
  {
    if |a| > 0 {
      assert (a + b)[0] == a[0] && (a + b)[1..] == a[1..] + b;
      SpacedConcat(if a[0].Accent? then a[0].at else last, a[1..], b);
    } else {
      assert a + b == b;
    }
  }

  /** Accents are debounced across frames and hands: over any run, each
      accent comes strictly more than 200 ms after the one before it, and
      the state remembers the last one. */
  lemma {:induction false} AccentsSpaced(st: ConductorState, readings: seq<HandReading>)
    ensures SpacedAfter(st.lastDownstroke, OnResults(st, readings).events)
    ensures OnResults(st, readings).state.lastDownstroke == LastAccent(st.lastDownstroke, OnResults(st, readings).events)
    decreases |readings|
  {
    if |readings| > 0 {
      var first := OnHand(st, readings[0]);
      var rest := OnResults(first.state, readings[1..]);
      AccentsSpaced(first.state, readings[1..]);
      OnHandSpaced(st, readings[0]);
      SpacedConcat(st.lastDownstroke, first.events, rest.events);
    }
  }

  /** One hand fires at most one accent, debounced against the state. */
  lemma OnHandSpaced(st: ConductorState, r: HandReading)
    ensures SpacedAfter(st.lastDownstroke, OnHand(st, r).events)
    ensures OnHand(st, r).state.lastDownstroke == LastAccent(st.lastDownstroke, OnHand(st, r).events)
  {
  }

  /** Start and stop events alternate, beginning with a start when the
      handler's flag is down and with a stop when it is up. */
  predicate Alternates(running: bool, events: seq<Event>)
    decreases |events|
  {
    |events| == 0 ||
    (match events[0]
     case StartMusic => !running && Alternates(true, events[1..])
     case StopMusic => running && Alternates(false, events[1..])
     case Accent(_) => Alternates(running, events[1..]))
  }

  /** The handler's flag after `events`. */
  function RunningAfter(running: bool, events: seq<Event>): bool
    decreases |events|
  {
    if |events| == 0 then running
    else RunningAfter(if events[0].StartMusic? then true else if events[0].StopMusic? then false else running, events[1..])
  }

  lemma {:induction false} AlternatesConcat(running: bool, a: seq<Event>, b: seq<Event>)
    ensures Alternates(running, a + b) <==> Alternates(running, a) && Alternates(RunningAfter(running, a), b)
    ensures RunningAfter(running, a + b) == RunningAfter(RunningAfter(running, a), b)
    decreases |a|
  {
    if |a| > 0 {
      assert (a + b)[0] == a[0] && (a + b)[1..] == a[1..] + b;
      AlternatesConcat(if a[0].StartMusic? then true else if a[0].StopMusic? then false else running, a[1..], b);
    } else {
      assert a + b == b;
    }
  }

  /** One hand keeps the alternation and the flag in step with it. */
  lemma OnHandAlternates(st: ConductorState, r: HandReading)
    ensures Alternates(st.runningLocal, OnHand(st, r).events)
    ensures OnHand(st, r).state.runningLocal == RunningAfter(st.runningLocal, OnHand(st, r).events)
  {
  }

  /** Over any run of frames the palm toggle's starts and stops strictly
      alternate, beginning with a start from the initial state, and the
      handler's flag records the last of them. */
  lemma {:induction false} TogglesAlternate(st: ConductorState, readings: seq<HandReading>)
    ensures Alternates(st.runningLocal, OnResults(st, readings).events)
    ensures OnResults(st, readings).state.runningLocal == RunningAfter(st.runningLocal, OnResults(st, readings).events)
    decreases |readings|
  {
    if |readings| > 0 {
      var first := OnHand(st, readings[0]);
      var rest := OnResults(first.state, readings[1..]);
      TogglesAlternate(first.state, readings[1..]);
      OnHandAlternates(st, readings[0]);
      AlternatesConcat(st.runningLocal, first.events, rest.events);
    }
  }

  predicate InUnit(v: Option<real>) {
    v.None? || 0.0 <= v.value <= 1.0
  }

  /** Smoothing is a convex combination: while every fingertip height is
      in [0, 1] so are both smoothed heights, and the tempo and volume stay
      in [60, 140] BPM and [-30, 0] dB (the initial 90 BPM and 0 dB are
      inside). */
  lemma {:induction false} SignalsStayInRange(st: ConductorState, readings: seq<HandReading>)
    requires InUnit(st.rightY) && InUnit(st.leftY)
    requires forall i :: 0 <= i < |readings| ==> 0.0 <= readings[i].hand[IndexTip].y <= 1.0
    requires 60 <= st.bpm <= 140 && -30 <= st.volumeDb <= 0
    ensures InUnit(OnResults(st, readings).state.rightY) && InUnit(OnResults(st, readings).state.leftY)
    ensures 60 <= OnResults(st, readings).state.bpm <= 140
    ensures -30 <= OnResults(st, readings).state.volumeDb <= 0
    decreases |readings|
  {
    if |readings| > 0 {
      var first := OnHand(st, readings[0]);
      assert InUnit(first.state.rightY) && InUnit(first.state.leftY);
      SignalsStayInRange(first.state, readings[1..]);
    }
  }

  /** The manual Play/Pause button: toggles the transport and the displayed
      flag, but not the frame handler's own flag. */
  function ManualToggle(st: ConductorState): (s: Step)
    ensures s.state.transportStarted == !st.transportStarted
    ensures s.state.running == !st.transportStarted
    ensures s.state.runningLocal == st.runningLocal
    ensures s.events == (if st.transportStarted then [StopMusic] else [StartMusic])
    ensures s.state.bpm == st.bpm && s.state.volumeDb == st.volumeDb
    ensures s.state.rightY == st.rightY && s.state.leftY == st.leftY
    ensures s.state.lastDownstroke == st.lastDownstroke
  {
    if !st.transportStarted then Step(SetTransport(st, true).(running := true), [StartMusic])
    else Step(SetTransport(st, false).(running := false), [StopMusic])
  }

  /** The times of the accents in `events`, in order. */
  function AccentTimes(events: seq<Event>): seq<real>
    decreases |events|
  {
    if |events| == 0 then []
    else (if events[0].Accent? then [events[0].at] else []) + AccentTimes(events[1..])
  }

  lemma {:induction false} AccentTimesConcat(a: seq<Event>, b: seq<Event>)
    ensures AccentTimes(a + b) == AccentTimes(a) + AccentTimes(b)
    decreases |a|
  {
    if |a| > 0 {
      assert (a + b)[0] == a[0] && (a + b)[1..] == a[1..] + b;
      AccentTimesConcat(a[1..], b);
    } else {
      assert a + b == b;
    }
  }

  /** A hand fires an accent exactly when it is a right hand making a
      debounced downstroke, and then at its own clock reading. */
  lemma OnHandAccents(st: ConductorState, r: HandReading)
    ensures AccentTimes(OnHand(st, r).events) ==
      (if r.handedness == Right && Downstroke(Velocity(r.prevY, r.hand[IndexTip].y), r.now, st.lastDownstroke)
       then [r.now] else [])
  {
  }

  /** Two sharp downward flicks of the right hand: 50 ms apart they give
      one accent, 250 ms apart they give two. */
  lemma DebounceScenario(st: ConductorState, r1: HandReading, r2: HandReading)
    requires r1.handedness == Right && r2.handedness == Right
    requires Velocity(r1.prevY, r1.hand[IndexTip].y) < DownstrokeVelocity
    requires Velocity(r2.prevY, r2.hand[IndexTip].y) < DownstrokeVelocity
    requires r1.now - st.lastDownstroke > DebounceMs
    requires r2.now == r1.now + 50.0 || r2.now == r1.now + 250.0
    ensures r2.now == r1.now + 50.0 ==> AccentTimes(OnResults(st, [r1, r2]).events) == [r1.now]
    ensures r2.now == r1.now + 250.0 ==> AccentTimes(OnResults(st, [r1, r2]).events) == [r1.now, r2.now]
  {
    OnResultsPair(st, r1, r2);
    var first := OnHand(st, r1);
    var second := OnHand(first.state, r2);
    OnHandAccents(st, r1);
    OnHandAccents(first.state, r2);
    assert first.state.lastDownstroke == r1.now by {
      OnHandSpaced(st, r1);
      assert first.events == [Accent(r1.now)] + first.events[1..] by {
        assert RightHand(st, r1).events == [Accent(r1.now)];
      }
    }
    AccentTimesConcat(first.events, second.events);
    assert AccentTimes(OnResults(st, [r1, r2]).events) ==
      [r1.now] + AccentTimes(second.events);
  }

  /** Two readings in one frame: the second hand sees the state the first
      left, and the frame's events are the first hand's followed by the
      second's. */
  lemma OnResultsPair(st: ConductorState, a: HandReading, b: HandReading)
    ensures OnResults(st, [a, b]).state == OnHand(OnHand(st, a).state, b).state
    ensures OnResults(st, [a, b]).events == OnHand(st, a).events + OnHand(OnHand(st, a).state, b).events
  {
    var first := OnHand(st, a);
    var second := OnHand(first.state, b);
    assert [a, b][1..] == [b];
    assert OnResults(first.state, [b]) == Step(second.state, second.events);
  }

  /** The palm toggle does not see the manual button: after the palm has
      started playback and the button has paused it, an open palm does not
      restart it. */
  lemma ManualPauseUnseenByPalm(st: ConductorState, r: HandReading)
    requires st.runningLocal && st.transportStarted
    requires SquaredDistance(r.hand[ThumbTip], r.hand[IndexTip]) > OpenSpread * OpenSpread
    ensures StartMusic !in OnHand(ManualToggle(st).state, r).events
    ensures !OnHand(ManualToggle(st).state, r).state.transportStarted
    ensures !OnHand(ManualToggle(st).state, r).state.running
  {
  }

  /** The first right-hand reading seeds the smoother, so the smoothed
      height is the reading itself. */
  lemma FirstReadingSeeds(st: ConductorState, r: HandReading)
    requires r.handedness == Right && st.rightY.None?
    ensures OnHand(st, r).state.rightY == Some(r.hand[IndexTip].y)
  {
  }

  /** A right fingertip held still at mid-height for three frames, from the
      initial state: the smoothed height stays 0.5 and the tempo becomes
      100 BPM. */
  lemma SteadyHandScenario(r: HandReading)
    requires r.handedness == Right && r.hand[IndexTip].y == 0.5
    ensures OnResults(Initial, [r, r, r]).state.rightY == Some(0.5)
    ensures OnResults(Initial, [r, r, r]).state.bpm == 100
  {
    assert MappedBpm(0.5) == 100 by { RoundOfInt(100); }
    var s1 := OnHand(Initial, r).state;
    assert s1.rightY == Some(0.5) && s1.bpm == 100;
    var s2 := OnHand(s1, r).state;
    assert s2.rightY == Some(0.5) && s2.bpm == 100;
    var s3 := OnHand(s2, r).state;
    assert s3.rightY == Some(0.5) && s3.bpm == 100;
    assert [r, r, r][1..] == [r, r] && [r, r][1..] == [r] && [r][1..] == [];
    assert OnResults(s3, []).state == s3;
    assert OnResults(s2, [r]).state == s3;
    assert OnResults(s1, [r, r]).state == s3;
    assert OnResults(Initial, [r, r, r]).state == s3;
  }
  /** Range of the tempo slider, in BPM. */
  const SliderMinBpm: int := 40
  const SliderMaxBpm: int := 160
  /** Range of the volume slider, in dB. */
  const SliderMinDb: int := -40
  const SliderMaxDb: int := 0

  /** The tempo slider: the value, which the range input keeps in 40..160,
      becomes the tempo as given; nothing else changes. */
  function SetBpm(st: ConductorState, v: int): (s: ConductorState)
    requires SliderMinBpm <= v <= SliderMaxBpm
    ensures s.bpm == v && s == st.(bpm := s.bpm)
  {
    st.(bpm := v)
  }

  /** The volume slider: the value, which the range input keeps in -40..0,
      becomes the volume as given; nothing else changes. */
  function SetVolumeDb(st: ConductorState, v: int): (s: ConductorState)
    requires SliderMinDb <= v <= SliderMaxDb
    ensures s.volumeDb == v && s == st.(volumeDb := s.volumeDb)
  {
    st.(volumeDb := v)
  }

  /** A slider value survives the next right-hand frame when the mapped
      tempo is within 1 BPM of it: set to 59 and followed by a fingertip at
      the bottom of the frame (mapped to 60 BPM), the tempo stays 59, below
      the mapping's own range. */
  lemma SliderValueOutlivesFrame(r: HandReading)
    requires r.handedness == Right && r.hand[IndexTip].y == 1.0
    ensures OnHand(SetBpm(Initial, 59), r).state.bpm == 59
  {
    assert MappedBpm(1.0) == 60 by { RoundOfInt(60); }
  }

  /** Whatever the slider set, a right-hand frame brings the tempo back
      within 1 BPM of the mapped value. */
  lemma RightHandOverridesSlider(st: ConductorState, v: int, r: HandReading)
    requires SliderMinBpm <= v <= SliderMaxBpm && r.handedness == Right
    ensures Abs(OnHand(SetBpm(st, v), r).state.bpm - MappedBpm(OnHand(SetBpm(st, v), r).state.rightY.value)) <= 1
  {
  }

  /** One user input to the air conductor: a frame of hands, a move of
      either slider, or the Play/Pause button. */
  datatype Input = Frame(readings: seq<HandReading>) | TempoSlider(bpm: int) | VolumeSlider(db: int) | PlayButton

  /** A slider move within the range of its input element. */
  predicate SliderInRange(i: Input) {
    && (i.TempoSlider? ==> SliderMinBpm <= i.bpm <= SliderMaxBpm)
    && (i.VolumeSlider? ==> SliderMinDb <= i.db <= SliderMaxDb)
  }

  predicate HeightsInUnit(readings: seq<HandReading>) {
    forall j :: 0 <= j < |readings| ==> 0.0 <= readings[j].hand[IndexTip].y <= 1.0
  }

  /** One input: a frame through `OnResults`, a slider move through its
      setter, and the button through `ManualToggle`. */
  function Apply(st: ConductorState, input: Input): Step
    requires SliderInRange(input)
  {
    match input
    case Frame(readings) => OnResults(st, readings)
    case TempoSlider(v) => Step(SetBpm(st, v), [])
    case VolumeSlider(v) => Step(SetVolumeDb(st, v), [])
    case PlayButton => ManualToggle(st)
  }

  /** Every input in order. */
  function Session(st: ConductorState, inputs: seq<Input>): Step
    requires forall i :: 0 <= i < |inputs| ==> SliderInRange(inputs[i])
    decreases |inputs|
  {
    if |inputs| == 0 then Step(st, [])
    else
      var first := Apply(st, inputs[0]);
      var rest := Session(first.state, inputs[1..]);
      Step(rest.state, first.events + rest.events)
  }

  /** A frame either leaves the tempo and the volume alone or sets them to
      mapped values inside [60, 140] BPM and [-30, 0] dB. */
  lemma {:induction false} FrameKeepsOrMaps(st: ConductorState, readings: seq<HandReading>)
    requires InUnit(st.rightY) && InUnit(st.leftY) && HeightsInUnit(readings)
    ensures InUnit(OnResults(st, readings).state.rightY) && InUnit(OnResults(st, readings).state.leftY)
    ensures OnResults(st, readings).state.bpm == st.bpm || 60 <= OnResults(st, readings).state.bpm <= 140
    ensures OnResults(st, readings).state.volumeDb == st.volumeDb || -30 <= OnResults(st, readings).state.volumeDb <= 0
    decreases |readings|
  {
    if |readings| > 0 {
      var first := OnHand(st, readings[0]);
      assert InUnit(first.state.rightY) && InUnit(first.state.leftY);
      assert first.state.bpm == st.bpm || 60 <= first.state.bpm <= 140;
      assert first.state.volumeDb == st.volumeDb || -30 <= first.state.volumeDb <= 0;
      assert HeightsInUnit(readings[1..]) by {
        forall j | 0 <= j < |readings[1..]|
          ensures 0.0 <= readings[1..][j].hand[IndexTip].y <= 1.0
        {
          assert readings[1..][j] == readings[j + 1];
        }
      }
      FrameKeepsOrMaps(first.state, readings[1..]);
    }
  }

  /** With the sliders in play the tempo and the volume are no longer held
      to the mapping's ranges, but they never leave the sliders' ranges
      [40, 160] BPM and [-40, 0] dB, which contain the mapping's. */
  lemma {:induction false} SessionStaysInSliderRange(st: ConductorState, inputs: seq<Input>)
    requires forall i :: 0 <= i < |inputs| ==> SliderInRange(inputs[i])
    requires forall i :: 0 <= i < |inputs| && inputs[i].Frame? ==> HeightsInUnit(inputs[i].readings)
    requires InUnit(st.rightY) && InUnit(st.leftY)
    requires SliderMinBpm <= st.bpm <= SliderMaxBpm && SliderMinDb <= st.volumeDb <= SliderMaxDb
    ensures InUnit(Session(st, inputs).state.rightY) && InUnit(Session(st, inputs).state.leftY)
    ensures SliderMinBpm <= Session(st, inputs).state.bpm <= SliderMaxBpm
    ensures SliderMinDb <= Session(st, inputs).state.volumeDb <= SliderMaxDb
    decreases |inputs|
  {
    if |inputs| > 0 {
      assert SliderInRange(inputs[0]);
      var first := Apply(st, inputs[0]);
      if inputs[0].Frame? {
        FrameKeepsOrMaps(st, inputs[0].readings);
      }
      assert InUnit(first.state.rightY) && InUnit(first.state.leftY);
      assert SliderMinBpm <= first.state.bpm <= SliderMaxBpm;
      assert SliderMinDb <= first.state.volumeDb <= SliderMaxDb;
      SessionStaysInSliderRange(first.state, inputs[1..]);
    }
  }
}

=== FILE: app.dfy ===
/** The single-hand app: each published (gesture, hand position) pair sets
    the volume from the height of the hand and the tempo from its horizontal
    position, and starts or pauses playback only on a change of state. */
module ConductorApp {
  import opened JsMath
  import opened JsStrings
  import opened Wrappers
  import opened HandDetection
  import MP = MusicPlayer

  datatype AppState = AppState(
    tempo: real,
    volume: real,
    isPlaying: bool,
    handPosition: Position,
    player: MP.Player)

  const Initial: AppState := AppState(120.0, 0.5, false, Position(0.0, 0.0), MP.New())

  /** A play/pause command issued to the player. */
  datatype Command = Start | Pause

  /** The state after a handler and the command it issued, if any. */
  datatype Reaction = Reaction(state: AppState, command: Option<Command>)

  /** Volume from the hand's height: a higher hand (smaller y) is louder. */
  function VolumeFor(y: real): (v: real)
    ensures 0.1 <= v <= 1.0
    ensures 0.0 <= y <= 0.9 ==> v == 1.0 - y
    ensures y >= 0.9 ==> v == 0.1
    ensures y <= 0.0 ==> v == 1.0
  {
    Clamp(1.0 - y, 0.1, 1.0)
  }

  /** Tempo from the hand's horizontal position: further right is faster. */
  function TempoFor(x: real): (t: real)
    ensures 40.0 <= t <= 180.0
    ensures 0.0 <= x <= 1.0 ==> t == 40.0 + 140.0 * x
    ensures x <= 0.0 ==> t == 40.0
    ensures x >= 1.0 ==> t == 180.0
  {
    Clamp(40.0 + x * 140.0, 40.0, 180.0)
  }

  /** Moving right never slows the music and moving up never quietens it. */
  lemma MappingsMonotonic(x: real, x': real, y: real, y': real)
    requires x <= x' && y <= y'
    ensures TempoFor(x) <= TempoFor(x')
    ensures VolumeFor(y') <= VolumeFor(y)
  {
  }

  /** `handleStartMusic`: start the player, hand it the current tempo and
      volume, and mark the app as playing. */
  function StartMusic(st: AppState): (r: AppState)
    ensures r.isPlaying && r.player.isPlaying
    ensures r.tempo == st.tempo && r.volume == st.volume && r.handPosition == st.handPosition
    ensures r.player.tempo == Clamp(st.tempo, MP.MinTempo, MP.MaxTempo)
    ensures r.player.volume == Clamp(st.volume, MP.MinVolume, MP.MaxVolume)
  {
    st.(player := MP.SetVolume(MP.SetTempo(MP.Start(st.player), st.tempo), st.volume), isPlaying := true)
  }

  /** `handlePauseMusic`: stop the player and mark the app as paused. */
  function PauseMusic(st: AppState): (r: AppState)
    ensures !r.isPlaying
    ensures r.player == MP.Stop(st.player)
    ensures r.tempo == st.tempo && r.volume == st.volume && r.handPosition == st.handPosition
  {
    st.(player := MP.Stop(st.player), isPlaying := false)
  }

  /** `handleTempoChange` (the slider): the app's tempo takes the value as
      given, and the player hears of it only while playing. */
  function TempoChange(st: AppState, tempo: real): (r: AppState)
    ensures r.tempo == tempo
    ensures r.isPlaying == st.isPlaying && r.volume == st.volume && r.handPosition == st.handPosition
    ensures st.isPlaying ==> r.player == MP.SetTempo(st.player, tempo)
    ensures !st.isPlaying ==> r.player == st.player
  {
    var player := if st.isPlaying then MP.SetTempo(st.player, tempo) else st.player;
    st.(tempo := tempo, player := player)
  }

  /** The effect that runs after tempo, volume or the playing flag change:
      while playing, the player is brought up to date. */
  function SyncPlayer(st: AppState): (r: AppState)
    ensures !st.isPlaying ==> r == st
    ensures st.isPlaying ==> r.player.tempo == Clamp(st.tempo, MP.MinTempo, MP.MaxTempo)
    ensures st.isPlaying ==> r.player.volume == Clamp(st.volume, MP.MinVolume, MP.MaxVolume)
    ensures r.player.isPlaying == st.player.isPlaying && r == st.(player := r.player)
  {
    if st.isPlaying then st.(player := MP.SetVolume(MP.SetTempo(st.player, st.tempo), st.volume))
    else st
  }

  /** `handleGestureChange`: record the position, derive volume and tempo
      from it, then start on an "Open Hand" label while paused or pause on a
      "Closed Hand" label while playing. */
  function GestureChange(st: AppState, gesture: string, pos: Position): (r: Reaction)
    ensures r.state.handPosition == pos
    ensures r.state.volume == VolumeFor(pos.y) && r.state.tempo == TempoFor(pos.x)
    ensures r.command == Some(Start) <==> Includes(gesture, "Open Hand") && !st.isPlaying
    ensures r.command == Some(Pause) <==> Includes(gesture, "Closed Hand") && st.isPlaying
    ensures r.command.None? ==> r.state.isPlaying == st.isPlaying && r.state.player == st.player
    ensures r.command == Some(Start) ==> r.state.isPlaying
    ensures r.command == Some(Pause) ==> !r.state.isPlaying
  {
    var moved := st.(handPosition := pos, volume := VolumeFor(pos.y), tempo := TempoFor(pos.x));
    if Includes(gesture, "Open Hand") && !st.isPlaying then
      Reaction(StartMusic(moved), Some(Start))
    else if Includes(gesture, "Closed Hand") && st.isPlaying then
      Reaction(PauseMusic(moved), Some(Pause))
    else
      Reaction(moved, None)
  }

  /** On the hook's labels: an open hand starts only when paused, a closed
      hand pauses only when playing, and any other label, or repeating the
      gesture that matches the current state, leaves playback alone. */
  lemma GestureEdges(st: AppState, g: Gesture, pos: Position)
    ensures GestureChange(st, Label(g), pos).command == Some(Start) <==> g == OpenHand && !st.isPlaying
    ensures GestureChange(st, Label(g), pos).command == Some(Pause) <==> g == ClosedHand && st.isPlaying
    ensures GestureChange(st, Label(g), pos).command.None? <==>
      (g == OtherGesture || g == NoGesture || (g == OpenHand && st.isPlaying) || (g == ClosedHand && !st.isPlaying))
    ensures GestureChange(st, Label(g), pos).state.isPlaying ==
      (if g == OpenHand then true else if g == ClosedHand then false else st.isPlaying)
  {
    LabelMentions(g);
  }

  /** One published gesture with its hand position. */
  datatype GestureInput = GestureInput(gesture: Gesture, pos: Position)

  /** The final state and the commands issued over a run of inputs. */
  datatype Trace = Trace(state: AppState, commands: seq<Command>)

  function OptionToSeq(c: Option<Command>): seq<Command> {
    if c.Some? then [c.value] else []
  }

  /** Feeds the inputs to `GestureChange` in order, each followed by the
      sync effect that its new tempo, volume or playing flag triggers. */
  function Run(st: AppState, inputs: seq<GestureInput>): Trace
    decreases |inputs|
  {
    if |inputs| == 0 then Trace(st, [])
    else
      var r := GestureChange(st, Label(inputs[0].gesture), inputs[0].pos);
      var rest := Run(SyncPlayer(r.state), inputs[1..]);
      Trace(rest.state, OptionToSeq(r.command) + rest.commands)
  }

  /** The app's main promise: after a run of one or more gestures the app
      holds the tempo and volume of the last hand position, and while
      playing the player plays exactly those. */
  lemma {:induction false} RunPlayerFollowsHand(st: AppState, inputs: seq<GestureInput>)
    requires |inputs| > 0
    ensures Run(st, inputs).state.handPosition == inputs[|inputs| - 1].pos
    ensures Run(st, inputs).state.tempo == TempoFor(inputs[|inputs| - 1].pos.x)
    ensures Run(st, inputs).state.volume == VolumeFor(inputs[|inputs| - 1].pos.y)
    ensures Run(st, inputs).state.isPlaying ==>
      Run(st, inputs).state.player.tempo == TempoFor(inputs[|inputs| - 1].pos.x)
      && Run(st, inputs).state.player.volume == VolumeFor(inputs[|inputs| - 1].pos.y)
    decreases |inputs|
  {
    var r := GestureChange(st, Label(inputs[0].gesture), inputs[0].pos);
    var synced := SyncPlayer(r.state);
    if |inputs| == 1 {
      assert Run(synced, inputs[1..]).state == synced;
      var pos := inputs[0].pos;
      if synced.isPlaying {
        assert synced.player.tempo == Clamp(TempoFor(pos.x), MP.MinTempo, MP.MaxTempo);
        assert synced.player.volume == Clamp(VolumeFor(pos.y), MP.MinVolume, MP.MaxVolume);
      }
    } else {
      RunPlayerFollowsHand(synced, inputs[1..]);
      assert inputs[1..][|inputs[1..]| - 1] == inputs[|inputs| - 1];
    }
  }

  /** Every run keeps the app and its player in agreement. */
  lemma {:induction false} RunKeepsConsistency(st: AppState, inputs: seq<GestureInput>)
    requires Consistent(st)
    ensures Consistent(Run(st, inputs).state)
    decreases |inputs|
  {
    if |inputs| > 0 {
      var r := GestureChange(st, Label(inputs[0].gesture), inputs[0].pos);
      HandlersKeepConsistency(st, Label(inputs[0].gesture), inputs[0].pos, 0.0);
      HandlersKeepConsistency(r.state, Label(inputs[0].gesture), inputs[0].pos, 0.0);
      RunKeepsConsistency(SyncPlayer(r.state), inputs[1..]);
    }
  }

  /** Commands alternate, starting with Start from a paused state and with
      Pause from a playing one. */
  predicate Alternates(playing: bool, commands: seq<Command>)
    decreases |commands|
  {
    |commands| == 0 ||
    (if commands[0] == Start then !playing && Alternates(true, commands[1..])
     else playing && Alternates(false, commands[1..]))
  }

  /** The playing flag after a command sequence. */
  function PlayingAfter(playing: bool, commands: seq<Command>): bool {
    if |commands| == 0 then playing else commands[|commands| - 1] == Start
  }

  /** Every run issues alternating commands: never two starts or two pauses
      in a row, and the final playing flag is that of the last command. */
  lemma {:induction false} RunAlternates(st: AppState, inputs: seq<GestureInput>)
    ensures Alternates(st.isPlaying, Run(st, inputs).commands)
    ensures Run(st, inputs).state.isPlaying == PlayingAfter(st.isPlaying, Run(st, inputs).commands)
    decreases |inputs|
  {
    if |inputs| > 0 {
      var r := GestureChange(st, Label(inputs[0].gesture), inputs[0].pos);
      var rest := Run(SyncPlayer(r.state), inputs[1..]);
      RunAlternates(SyncPlayer(r.state), inputs[1..]);
      var cs := OptionToSeq(r.command) + rest.commands;
      if r.command.Some? {
        assert cs[0] == r.command.value && cs[1..] == rest.commands;
        if |rest.commands| == 0 {
          assert cs == [r.command.value];
        } else {
          assert cs[|cs| - 1] == rest.commands[|rest.commands| - 1];
        }
      } else {
        assert cs == rest.commands;
      }
    }
  }

  /** The play/pause edge machine on gestures alone: the commands a run
      issues, defined without tempo, volume, position or the player. */
  function EdgeCommands(playing: bool, gestures: seq<Gesture>): seq<Command>
    decreases |gestures|
  {
    if |gestures| == 0 then []
    else
      var g := gestures[0];
      if g == OpenHand && !playing then [Start] + EdgeCommands(true, gestures[1..])
      else if g == ClosedHand && playing then [Pause] + EdgeCommands(false, gestures[1..])
      else EdgeCommands(playing, gestures[1..])
  }

  function Gestures(inputs: seq<GestureInput>): (gs: seq<Gesture>)
    ensures |gs| == |inputs|
    ensures forall i :: 0 <= i < |inputs| ==> gs[i] == inputs[i].gesture
  {
    seq(|inputs|, i requires 0 <= i < |inputs| => inputs[i].gesture)
  }

  /** The app issues exactly the commands of the edge machine: hand
      positions never cause or suppress a start or a pause. */
  lemma {:induction false} RunFollowsEdgeMachine(st: AppState, inputs: seq<GestureInput>)
    ensures Run(st, inputs).commands == EdgeCommands(st.isPlaying, Gestures(inputs))
    decreases |inputs|
  {
    if |inputs| > 0 {
      var g := inputs[0].gesture;
      var r := GestureChange(st, Label(g), inputs[0].pos);
      GestureEdges(st, g, inputs[0].pos);
      RunFollowsEdgeMachine(SyncPlayer(r.state), inputs[1..]);
      assert Gestures(inputs)[1..] == Gestures(inputs[1..]);
    }
  }

  /** Other, Open, Open, Open, Closed from a paused state issues exactly one
      start followed by one pause, wherever the hand is. */
  lemma OpenHeldThenClosed(st: AppState, p0: Position, p1: Position, p2: Position, p3: Position, p4: Position)
    requires !st.isPlaying
    ensures Run(st, [GestureInput(OtherGesture, p0), GestureInput(OpenHand, p1), GestureInput(OpenHand, p2),
                     GestureInput(OpenHand, p3), GestureInput(ClosedHand, p4)]).commands == [Start, Pause]
  {
    var ins := [GestureInput(OtherGesture, p0), GestureInput(OpenHand, p1), GestureInput(OpenHand, p2),
                GestureInput(OpenHand, p3), GestureInput(ClosedHand, p4)];
    RunFollowsEdgeMachine(st, ins);
    var gs := [OtherGesture, OpenHand, OpenHand, OpenHand, ClosedHand];
    assert Gestures(ins) == gs;
    assert EdgeCommands(true, gs[4..]) == [Pause] + EdgeCommands(false, gs[5..]);
    assert EdgeCommands(true, gs[3..]) == EdgeCommands(true, gs[4..]);
    assert EdgeCommands(true, gs[2..]) == EdgeCommands(true, gs[3..]);
    assert EdgeCommands(false, gs[1..]) == [Start] + EdgeCommands(true, gs[2..]);
    assert EdgeCommands(false, gs) == EdgeCommands(false, gs[1..]);
  }

  /** The effect that calls the handler runs on mount and whenever the
      handler is recreated, which happens whenever the playing flag changes.
      On mount the initial "No gesture detected" at (0, 0) at once gives
      tempo 40 and volume 1 without a command. Rerun with a remembered
      closed-hand label right after a manual start, it pauses again; rerun
      with an open-hand label right after a manual pause, it starts again. */
  lemma HandlerRerunEffects(st: AppState, pos: Position)
    ensures GestureChange(Initial, Label(NoGesture), Position(0.0, 0.0)).state.tempo == 40.0
    ensures GestureChange(Initial, Label(NoGesture), Position(0.0, 0.0)).state.volume == 1.0
    ensures GestureChange(Initial, Label(NoGesture), Position(0.0, 0.0)).command.None?
    ensures GestureChange(StartMusic(st), Label(ClosedHand), pos).command == Some(Pause)
    ensures GestureChange(PauseMusic(st), Label(OpenHand), pos).command == Some(Start)
  {
    GestureEdges(Initial, NoGesture, Position(0.0, 0.0));
    GestureEdges(StartMusic(st), ClosedHand, pos);
    GestureEdges(PauseMusic(st), OpenHand, pos);
  }

  /** The app's flag and the player's agree, and the player is valid. */
  predicate Consistent(st: AppState) {
    MP.Valid(st.player) && st.isPlaying == st.player.isPlaying
  }

  /** Every handler keeps the app and its player in agreement. */
  lemma HandlersKeepConsistency(st: AppState, gesture: string, pos: Position, tempo: real)
    requires Consistent(st)
    ensures Consistent(Initial)
    ensures Consistent(StartMusic(st)) && Consistent(PauseMusic(st))
    ensures Consistent(TempoChange(st, tempo)) && Consistent(SyncPlayer(st))
    ensures Consistent(GestureChange(st, gesture, pos).state)
  {
  }

  /** The corner cases of the position mapping: bottom-left is the slowest
      and quietest, top-right the fastest and loudest. */
  lemma MappingCorners()
    ensures TempoFor(0.0) == 40.0 && VolumeFor(1.0) == 0.1
    ensures TempoFor(1.0) == 180.0 && VolumeFor(0.0) == 1.0
  {
  }
}

=== FILE: hand_detection.dfy ===
/** The gesture hook of the single-hand app: every analysed hand is
    classified as open, closed or other from the distance between the wrist
    and the index fingertip, and the wrist becomes the reported hand
    position. */
module HandDetection {
  import opened Landmarks
  import opened JsStrings

  datatype Gesture = NoGesture | OpenHand | ClosedHand | OtherGesture

  /** The label the hook publishes for each gesture. */
  function Label(g: Gesture): string {
    match g
    case NoGesture => "No gesture detected"
    case OpenHand => "Open Hand - Music Playing"
    case ClosedHand => "Closed Hand - Music Paused"
    case OtherGesture => "Other Gesture"
  }

  /** Wrist-to-index-tip distances above this are an open hand. */
  const OpenDistance: real := 0.3
  /** Wrist-to-index-tip distances below this are a closed hand. */
  const ClosedDistance: real := 0.15

  datatype Position = Position(x: real, y: real)

  /** The two pieces of state the hook exposes. */
  datatype DetectionState = DetectionState(gesture: Gesture, handPosition: Position)

  /** The state before any hand has been analysed. */
  const Initial: DetectionState := DetectionState(NoGesture, Position(0.0, 0.0))

  function WristPosition(hand: Hand): Position {
    Position(hand[Wrist].x, hand[Wrist].y)
  }

  /** The gesture of one hand, decided on the squared wrist-to-index-tip
      distance (see `ClassifyByDistance` for the distance itself). */
  function Classify(hand: Hand): (g: Gesture)
    ensures g != NoGesture
    ensures g == OpenHand <==> SquaredDistance(hand[Wrist], hand[IndexTip]) > OpenDistance * OpenDistance
    ensures g == ClosedHand <==> SquaredDistance(hand[Wrist], hand[IndexTip]) < ClosedDistance * ClosedDistance
  {
    var spread := SquaredDistance(hand[Wrist], hand[IndexTip]);
    if spread > OpenDistance * OpenDistance then OpenHand
    else if spread < ClosedDistance * ClosedDistance then ClosedHand
    else OtherGesture
  }

  /** For the distance `d` itself: above 0.3 is open, below 0.15 is closed,
      and everything from 0.15 to 0.3, both ends included, is other; so every
      hand gets exactly one of the three labels and is never both open and
      closed. */
  lemma ClassifyByDistance(hand: Hand, d: real)
    requires d >= 0.0 && d * d == SquaredDistance(hand[Wrist], hand[IndexTip])
    ensures Classify(hand) == OpenHand <==> d > 0.3
    ensures Classify(hand) == ClosedHand <==> d < 0.15
    ensures Classify(hand) == OtherGesture <==> 0.15 <= d <= 0.3
  {
    ThresholdBySquares(d, OpenDistance);
    ThresholdBySquares(d, ClosedDistance);
  }

  /** Analysing a hand replaces both fields, whatever the previous state. */
  function AnalyzeGesture(st: DetectionState, hand: Hand): (r: DetectionState)
    ensures r.gesture == Classify(hand) && r.gesture != NoGesture
    ensures r.handPosition.x == hand[Wrist].x && r.handPosition.y == hand[Wrist].y
  {
    DetectionState(Classify(hand), WristPosition(hand))
  }

  /** Only the wrist and the index fingertip influence the analysis. */
  lemma OnlyWristAndIndexTipMatter(st: DetectionState, st': DetectionState, h: Hand, h': Hand)
    requires h[Wrist] == h'[Wrist] && h[IndexTip] == h'[IndexTip]
    ensures AnalyzeGesture(st, h) == AnalyzeGesture(st', h')
  {
  }

  /** One frame of results: every detected hand is analysed in order, so
      with no hands nothing changes, and otherwise the last hand decides
      both the gesture and the position. */
  method OnHandResults(st: DetectionState, hands: seq<Hand>) returns (r: DetectionState)
    ensures |hands| == 0 ==> r == st
    ensures |hands| > 0 ==> r.gesture == Classify(hands[|hands| - 1])
    ensures |hands| > 0 ==> r.handPosition == WristPosition(hands[|hands| - 1])
  {
    r := st;
    for i := 0 to |hands|
      invariant i == 0 ==> r == st
      invariant i > 0 ==> r == AnalyzeGesture(st, hands[i - 1])
    {
      r := AnalyzeGesture(r, hands[i]);
    }
  }

  /** Before the first hand the hook reports no gesture at the origin. */
  lemma InitialDetection()
    ensures Label(Initial.gesture) == "No gesture detected"
    ensures Initial.handPosition == Position(0.0, 0.0)
  {
  }

  /** The labels mention "Open Hand" and "Closed Hand" exactly for the open
      and the closed gesture, which is what the app's play/pause test looks
      for. */
  lemma LabelMentions(g: Gesture)
    ensures Includes(Label(g), "Open Hand") <==> g == OpenHand
    ensures Includes(Label(g), "Closed Hand") <==> g == ClosedHand
  {
    match g
    case NoGesture => NoGestureMentionsNeither();
    case OpenHand => OpenMentionsOpenOnly();
    case ClosedHand => ClosedMentionsClosedOnly();
    case OtherGesture => OtherMentionsNeither();
  }

  lemma NoGestureMentionsNeither()
    ensures !Includes(Label(NoGesture), "Open Hand")
    ensures !Includes(Label(NoGesture), "Closed Hand")
  {
    NoGestureLacks("Open Hand");
    NoGestureLacks("Closed Hand");
  }

  lemma NoGestureLacks(phrase: string)
    requires phrase == "Open Hand" || phrase == "Closed Hand"
    ensures !Includes(Label(NoGesture), phrase)
  {
    var s := Label(NoGesture);
    assert forall i :: 0 <= i < |s| ==> s[i] != 'O' && s[i] != 'C';
    FirstCharAbsent(s, phrase);
  }

  lemma OpenMentionsOpenOnly()
    ensures Includes(Label(OpenHand), "Open Hand")
    ensures !Includes(Label(OpenHand), "Closed Hand")
  {
    IncludesAtOffset(Label(OpenHand), "Open Hand", 0);
    FirstCharAbsent(Label(OpenHand), "Closed Hand");
  }

  lemma ClosedMentionsClosedOnly()
    ensures Includes(Label(ClosedHand), "Closed Hand")
    ensures !Includes(Label(ClosedHand), "Open Hand")
  {
    IncludesAtOffset(Label(ClosedHand), "Closed Hand", 0);
    FirstCharAbsent(Label(ClosedHand), "Open Hand");
  }

  /** "Other Gesture" starts with the same letter as "Open Hand", so the
      search has to look past its first character. */
  lemma OtherMentionsNeither()
    ensures !Includes(Label(OtherGesture), "Open Hand")
    ensures !Includes(Label(OtherGesture), "Closed Hand")
  {
    var s := Label(OtherGesture);
    assert s[..9][1] != "Open Hand"[1];
    assert s[1..] == "ther Gesture";
    FirstCharAbsent(s[1..], "Open Hand");
    FirstCharAbsent(s, "Closed Hand");
  }
}

=== FILE: js_math.dfy ===
/** The two numeric idioms the mapping code is built from, over exact reals:
    the clamp `Math.max(lo, Math.min(hi, v))` and `Math.round`. */
module JsMath {

  /** `Math.max(lo, Math.min(hi, v))`; for `lo <= hi` this is the point of
      `[lo, hi]` nearest to `v`. */
  function Clamp(v: real, lo: real, hi: real): (r: real)
    ensures lo <= hi ==> lo <= r <= hi
    ensures lo <= v <= hi ==> r == v
    ensures lo <= hi && v < lo ==> r == lo
    ensures lo <= hi && hi < v ==> r == hi
  {
    var m := if v < hi then v else hi;
    if lo > m then lo else m
  }

  /** `Math.round`: the nearest integer, halves rounded towards +infinity. */
  function Round(v: real): (r: int)
    ensures v - 0.5 < r as real <= v + 0.5
  {
    (v + 0.5).Floor
  }

  /** Rounding an integer gives it back. */
  lemma RoundOfInt(n: int)
    ensures Round(n as real) == n
  {
  }

  /** A value between two integers rounds to a value between them. */
  lemma RoundWithin(v: real, lo: int, hi: int)
    requires lo as real <= v <= hi as real
    ensures lo <= Round(v) <= hi
  {
  }

  function Abs(n: int): (r: nat)
    ensures r == n || r == -n
  {
    if n < 0 then -n else n
  }
}

=== FILE: js_strings.dfy ===
/** `String.prototype.includes`, the only string operation the mapping code
    performs: it decides play and pause by looking for a phrase inside the
    gesture label. */
module JsStrings {

  /** `t` is a prefix of `s`. */
  predicate StartsWith(s: string, t: string) {
    |t| <= |s| && s[..|t|] == t
  }

  /** `s.includes(t)`: `t` occurs in `s` at some offset. */
  predicate Includes(s: string, t: string)
    decreases |s|
  {
    StartsWith(s, t) || (|s| > 0 && Includes(s[1..], t))
  }

  /** `t` occurs in `s` starting at offset `k`. */
  predicate At(s: string, t: string, k: int) {
    0 <= k && k + |t| <= |s| && s[k..k + |t|] == t
  }

  /** `Includes` is exactly the offset-based reading of `includes`: `t` is
      included in `s` iff it occurs at some offset. */
  lemma IncludesIffOccurs(s: string, t: string)
    ensures Includes(s, t) <==> exists k :: At(s, t, k)
  {
    if Includes(s, t) {
      var k := IncludesOccurrence(s, t);
    }
    if exists k :: At(s, t, k) {
      var k :| At(s, t, k);
      IncludesAtOffset(s, t, k);
    }
  }

  /** An included phrase occurs at some offset, which is returned. */
  lemma {:induction false} IncludesOccurrence(s: string, t: string) returns (k: int)
    requires Includes(s, t)
    ensures At(s, t, k)
    decreases |s|
  {
    if StartsWith(s, t) {
      k := 0;
    } else {
      var j := IncludesOccurrence(s[1..], t);
      assert s[1..][j..j + |t|] == s[j + 1..j + 1 + |t|];
      k := j + 1;
    }
  }

  /** An occurrence at an offset makes the phrase included. */
  lemma {:induction false} IncludesAtOffset(s: string, t: string, k: nat)
    requires k + |t| <= |s| && s[k..k + |t|] == t
    ensures Includes(s, t)
    decreases k
  {
    if k > 0 {
      assert s[1..][k - 1..k - 1 + |t|] == s[k..k + |t|];
      IncludesAtOffset(s[1..], t, k - 1);
    }
  }

  /** A phrase whose first character does not occur in `s` is not included. */
  lemma {:induction false} FirstCharAbsent(s: string, t: string)
    requires |t| > 0 && t[0] !in s
    ensures !Includes(s, t)
    decreases |s|
  {
    if |t| <= |s| {
      assert s[..|t|][0] == s[0];
      assert s[0] in s;
    }
    if |s| > 0 {
      assert forall c :: c in s[1..] ==> c in s;
      FirstCharAbsent(s[1..], t);
    }
  }
}

=== FILE: landmarks.dfy ===
/** Hand landmarks as delivered by the hand-tracking model: 21 points per
    hand in normalised image coordinates (origin top-left, y grows
    downwards), indexed by anatomical meaning. Only the planar coordinates
    are used by the mapping code, so the optional depth `z` is not kept. */
module Landmarks {

  datatype Landmark = Landmark(x: real, y: real)

  const HandSize: nat := 21
  const Wrist: nat := 0
  const ThumbTip: nat := 4
  const IndexTip: nat := 8

  /** One detected hand. */
  type Hand = lms: seq<Landmark> | |lms| == HandSize
    witness seq(HandSize, _ => Landmark(0.0, 0.0))

  /** The square of the Euclidean distance between two landmarks. Every
      threshold in the source compares a distance `d >= 0` against a positive
      constant `t`; the model compares `d * d` against `t * t` instead, which
      `ThresholdBySquares` shows to be the same test. */
  function SquaredDistance(a: Landmark, b: Landmark): (r: real)
    ensures r >= 0.0
  {
    (b.x - a.x) * (b.x - a.x) + (b.y - a.y) * (b.y - a.y)
  }

  /** For non-negative reals, comparing squares is comparing the values. */
  lemma ThresholdBySquares(d: real, t: real)
    requires d >= 0.0 && t >= 0.0
    ensures d > t <==> d * d > t * t
    ensures d < t <==> d * d < t * t
  {
    if t < d { SquaresOrdered(d, t); }
    if d < t { SquaresOrdered(t, d); }
  }

  /** The square of the larger of two non-negative reals is larger. */
  lemma SquaresOrdered(a: real, b: real)
    requires 0.0 <= b < a
    ensures b * b < a * a
  {
    calc {
      b * b;
    <= b * a;
    < a * a;
    }
  }
}

=== FILE: music_player.dfy ===
/** The oscillator-based player of the single-hand app, reduced to its state:
    whether an audio context exists, the three voices and their gains, the
    playing flag, the clamped tempo and volume, and the timing of the
    repeating eight-note melody. The audio graph itself is not modelled. */
module MusicPlayer {
  import opened JsMath
  import opened Wrappers

  const MinTempo: real := 40.0
  const MaxTempo: real := 180.0
  const MinVolume: real := 0.1
  const MaxVolume: real := 1.0

  /** Voices created by the one-time initialisation. */
  const VoiceCount: nat := 3

  datatype Waveform = Sine | Triangle | Sawtooth

  datatype Oscillator = Oscillator(wave: Waveform, frequency: real)

  datatype Player = Player(
    hasContext: bool,
    oscillators: seq<Oscillator>,
    gains: seq<real>,
    isPlaying: bool,
    tempo: real,
    volume: real)

  /** Voice `i` scaled down by 30% per voice. */
  function GainFor(volume: real, i: int): real {
    volume * (1.0 - i as real * 0.3)
  }

  /** What holds of every player reachable from `New` by the operations
      below. */
  predicate Valid(p: Player) {
    && MinTempo <= p.tempo <= MaxTempo
    && MinVolume <= p.volume <= MaxVolume
    && |p.oscillators| == (if p.hasContext then VoiceCount else 0)
    && |p.gains| == |p.oscillators|
    && (forall i :: 0 <= i < |p.gains| ==> p.gains[i] == GainFor(p.volume, i))
    && (p.isPlaying ==> p.hasContext)
  }

  /** A fresh player: silent, no audio context, tempo 120 and volume 0.5,
      both inside the clamp ranges. */
  function New(): (p: Player)
    ensures Valid(p)
    ensures !p.isPlaying && !p.hasContext && |p.oscillators| == 0
  {
    Player(false, [], [], false, 120.0, 0.5)
  }

  /** Voice `i`: sine, triangle, sawtooth at 220, 440, 660 Hz. */
  function Voice(i: nat): Oscillator
    requires i < VoiceCount
  {
    Oscillator(if i == 0 then Sine else if i == 1 then Triangle else Sawtooth, 220.0 * (i + 1) as real)
  }

  /** The three voices the initialisation creates, in order. */
  function Voices(): (v: seq<Oscillator>)
    ensures |v| == VoiceCount
    ensures v[0].wave == Sine && v[1].wave == Triangle && v[2].wave == Sawtooth
    ensures forall i :: 0 <= i < |v| ==> v[i].frequency == 220.0 * (i + 1) as real
  {
    seq(VoiceCount, i requires 0 <= i < VoiceCount => Voice(i))
  }

  /** The gains of the three voices at a volume. */
  function VoiceGains(volume: real): (g: seq<real>)
    ensures |g| == VoiceCount
    ensures forall i :: 0 <= i < |g| ==> g[i] == GainFor(volume, i)
  {
    seq(VoiceCount, i => GainFor(volume, i))
  }

  /** Creates the audio context and appends three voices with their gains:
      sine, triangle and sawtooth at 220, 440 and 660 Hz, at the volume
      scaled down by 30% per voice. Run on a valid player without a context
      it gives a valid player with exactly those three voices. */
  function Init(p: Player): (r: Player)
    ensures r.hasContext && r.isPlaying == p.isPlaying
    ensures r.tempo == p.tempo && r.volume == p.volume
    ensures r.oscillators == p.oscillators + Voices() && r.gains == p.gains + VoiceGains(p.volume)
    ensures Valid(p) && !p.hasContext ==> Valid(r)
  {
    p.(hasContext := true, oscillators := p.oscillators + Voices(), gains := p.gains + VoiceGains(p.volume))
  }

  /** `start`: initialises only when there is no audio context yet, then
      marks the player as playing. */
  function Start(p: Player): (r: Player)
    ensures r.isPlaying && r.hasContext
    ensures r.tempo == p.tempo && r.volume == p.volume
    ensures p.hasContext ==> r.oscillators == p.oscillators && r.gains == p.gains
    ensures !p.hasContext ==> |r.oscillators| == |p.oscillators| + VoiceCount
    ensures Valid(p) ==> Valid(r)
  {
    var q := if p.hasContext then p else Init(p);
    q.(isPlaying := true)
  }

  /** `stop`: only a player with an audio context can be stopped. */
  function Stop(p: Player): (r: Player)
    ensures p.hasContext ==> r == p.(isPlaying := false)
    ensures !p.hasContext ==> r == p
    ensures Valid(p) ==> Valid(r) && !r.isPlaying
  {
    if p.hasContext then p.(isPlaying := false) else p
  }

  /** `setTempo`: the stored tempo is the request clamped to 40..180. */
  function SetTempo(p: Player, tempo: real): (r: Player)
    ensures MinTempo <= r.tempo <= MaxTempo
    ensures MinTempo <= tempo <= MaxTempo ==> r.tempo == tempo
    ensures tempo < MinTempo ==> r.tempo == MinTempo
    ensures tempo > MaxTempo ==> r.tempo == MaxTempo
    ensures r == p.(tempo := r.tempo)
    ensures Valid(p) ==> Valid(r)
  {
    p.(tempo := Clamp(tempo, MinTempo, MaxTempo))
  }

  /** `setVolume`: the stored volume is the request clamped to 0.1..1, and
      every existing gain is rescaled to it. */
  function SetVolume(p: Player, volume: real): (r: Player)
    ensures MinVolume <= r.volume <= MaxVolume
    ensures MinVolume <= volume <= MaxVolume ==> r.volume == volume
    ensures volume < MinVolume ==> r.volume == MinVolume
    ensures volume > MaxVolume ==> r.volume == MaxVolume
    ensures |r.gains| == |p.gains|
    ensures forall i :: 0 <= i < |r.gains| ==> r.gains[i] == GainFor(r.volume, i)
    ensures r == p.(volume := r.volume, gains := r.gains)
    ensures Valid(p) ==> Valid(r)
  {
    var v := Clamp(volume, MinVolume, MaxVolume);
    p.(volume := v, gains := seq(|p.gains|, i => GainFor(v, i)))
  }

  /** Setting the stored tempo again changes nothing. */
  lemma SetTempoIdempotent(p: Player, tempo: real)
    ensures SetTempo(SetTempo(p, tempo), SetTempo(p, tempo).tempo) == SetTempo(p, tempo)
  {
  }

  /** Setting the stored volume again changes nothing. */
  lemma SetVolumeIdempotent(p: Player, volume: real)
    ensures SetVolume(SetVolume(p, volume), SetVolume(p, volume).volume) == SetVolume(p, volume)
  {
  }

  /** Once the voices exist their gains are positive and strictly
      decreasing: full volume, 70% and 40%. */
  lemma GainsDecrease(p: Player)
    requires Valid(p) && p.hasContext
    ensures 0.0 < p.gains[2] < p.gains[1] < p.gains[0] == p.volume
  {
  }

  /** Starting a player that is already playing changes nothing. */
  lemma StartIdempotent(p: Player)
    ensures Start(Start(p)) == Start(p)
  {
  }

  /** Stopping a stopped player changes nothing. */
  lemma StopIdempotent(p: Player)
    ensures Stop(Stop(p)) == Stop(p)
  {
  }

  /** `n` successive starts. */
  function Starts(p: Player, n: nat): Player {
    if n == 0 then p else Start(Starts(p, n - 1))
  }

  /** Initialisation happens at most once: a new player has no voices, and
      it has exactly three after any positive number of starts. */
  lemma {:induction false} InitAtMostOnce(n: nat)
    ensures |Starts(New(), n).oscillators| == if n == 0 then 0 else VoiceCount
  {
    if n > 1 {
      InitAtMostOnce(n - 1);
      assert Starts(New(), n - 1).hasContext;
    }
  }

  /** The pitches of one pass of the melody (C4 up to C5). */
  const Melody: seq<real> := [261.63, 293.66, 329.63, 349.23, 392.00, 440.00, 493.88, 523.25]

  /** The frequencies every voice is set to at one instant. */
  datatype Slot = Slot(time: real, frequencies: seq<real>)

  /** One pass of the melody and the delay before the next pass. */
  datatype Schedule = Schedule(slots: seq<Slot>, nextDelayMs: real)

  /** Seconds per beat. */
  function BeatSeconds(tempo: real): real
    requires tempo > 0.0
  {
    60.0 / tempo
  }

  /** Voice `k` plays the note times `(k + 1) / 2`. */
  function Harmony(note: real, k: int): real {
    note * (k + 1) as real * 0.5
  }

  /** Slots start at `now` and follow one another every `gap` seconds. */
  predicate Spaced(slots: seq<Slot>, now: real, gap: real) {
    && |slots| > 0
    && slots[0].time == now
    && forall i :: 0 < i < |slots| ==> slots[i].time == slots[i - 1].time + gap
  }

  /** `scheduleNotes`: nothing unless playing with an audio context;
      otherwise one slot per melody note, a half beat (30 / tempo s) apart
      starting now, in which voice k plays the note times (k + 1) / 2, and
      the next pass is due 240000 / tempo ms later. */
  method ScheduleNotes(p: Player, now: real) returns (r: Option<Schedule>)
    requires Valid(p)
    ensures r.None? <==> !p.isPlaying || !p.hasContext
    ensures r.Some? ==> |r.value.slots| == |Melody|
    ensures r.Some? ==> Spaced(r.value.slots, now, 30.0 / p.tempo)
    ensures r.Some? ==> forall i :: 0 <= i < |r.value.slots| ==>
      |r.value.slots[i].frequencies| == |p.oscillators|
      && forall k :: 0 <= k < |p.oscillators| ==> r.value.slots[i].frequencies[k] == Harmony(Melody[i], k)
    ensures r.Some? ==> r.value.nextDelayMs == 240000.0 / p.tempo
  {
    if !p.isPlaying || !p.hasContext {
      return None;
    }
    var beat := BeatSeconds(p.tempo);
    var slots := LayOutMelody(now, beat, |p.oscillators|);
    var delay := |Melody| as real * beat * 0.5 * 1000.0;
    forall i | 0 < i < |slots|
      ensures slots[i].time == slots[i - 1].time + beat * 0.5
    {
      HalfBeatStep(now, beat, i);
    }
    assert slots[0].time == now by {
      assert SlotTime(now, beat, 0) == now;
    }
    assert beat * 0.5 == 30.0 / p.tempo;
    r := Some(Schedule(slots, delay));
  }

  /** The source's time for melody note `j`: `now + j * beat * 0.5`. */
  function SlotTime(now: real, beat: real, j: int): real {
    now + j as real * beat * 0.5
  }

  /** The melody's slots at the source's times, each with the harmony of
      every voice. */
  method LayOutMelody(now: real, beat: real, voices: nat) returns (slots: seq<Slot>)
    ensures |slots| == |Melody|
    ensures forall j :: 0 <= j < |slots| ==> slots[j].time == SlotTime(now, beat, j)
    ensures forall j :: 0 <= j < |slots| ==>
      |slots[j].frequencies| == voices
      && forall k :: 0 <= k < voices ==> slots[j].frequencies[k] == Harmony(Melody[j], k)
  {
    slots := [];
    for i := 0 to |Melody|
      invariant |slots| == i
      invariant forall j :: 0 <= j < i ==> slots[j].time == SlotTime(now, beat, j)
      invariant forall j :: 0 <= j < i ==>
        |slots[j].frequencies| == voices
        && forall k :: 0 <= k < voices ==> slots[j].frequencies[k] == Harmony(Melody[j], k)
    {
      var freqs := seq(voices, k => Harmony(Melody[i], k));
      slots := slots + [Slot(SlotTime(now, beat, i), freqs)];
    }
  }

  /** Consecutive notes are half a beat apart. */
  lemma HalfBeatStep(now: real, beat: real, j: int)
    ensures SlotTime(now, beat, j) == SlotTime(now, beat, j - 1) + beat * 0.5
  {
    assert j as real * beat * 0.5 == (j - 1) as real * beat * 0.5 + beat * 0.5;
  }

  /** Slot `j` of a spaced layout is `j` gaps after the start. */
  lemma {:induction false} SpacedSlotTime(slots: seq<Slot>, now: real, gap: real, j: nat)
    requires Spaced(slots, now, gap) && j < |slots|
    ensures slots[j].time == now + j as real * gap
  {
    if j > 0 {
      SpacedSlotTime(slots, now, gap, j - 1);
    }
  }

  /** Multiplying by a positive factor keeps a strict order. */
  lemma ScaleStrict(a: real, b: real, g: real)
    requires a < b && g > 0.0
    ensures a * g < b * g
  {
    assert b * g - a * g == (b - a) * g;
  }

  /** In a layout with a positive gap an earlier slot comes strictly
      earlier. */
  lemma SpacedOrdered(slots: seq<Slot>, now: real, gap: real, i: nat, j: nat)
    requires gap > 0.0 && Spaced(slots, now, gap) && i < j < |slots|
    ensures slots[i].time < slots[j].time
  {
    SpacedSlotTime(slots, now, gap, i);
    SpacedSlotTime(slots, now, gap, j);
    ScaleStrict(i as real, j as real, gap);
  }

  /** A layout with a positive gap has strictly increasing times. */
  lemma SpacedIncreasing(slots: seq<Slot>, now: real, gap: real)
    requires gap > 0.0 && Spaced(slots, now, gap)
    ensures forall i, j :: 0 <= i < j < |slots| ==> slots[i].time < slots[j].time
  {
    forall i, j | 0 <= i < j < |slots|
      ensures slots[i].time < slots[j].time
    {
      SpacedOrdered(slots, now, gap, i, j);
    }
  }

  /** A schedule laid out this way plays its notes in strictly increasing
      time order, and its last note's half beat ends exactly when the next
      pass is due, so consecutive passes join without gap or overlap. */
  lemma ScheduleTiming(s: Schedule, now: real, tempo: real)
    requires tempo > 0.0 && |s.slots| == |Melody|
    requires Spaced(s.slots, now, 30.0 / tempo) && s.nextDelayMs == 240000.0 / tempo
    ensures forall i, j :: 0 <= i < j < |s.slots| ==> s.slots[i].time < s.slots[j].time
    ensures s.slots[|s.slots| - 1].time + 30.0 / tempo == now + s.nextDelayMs / 1000.0
  {
    var gap := 30.0 / tempo;
    assert gap > 0.0;
    SpacedIncreasing(s.slots, now, gap);
    SpacedSlotTime(s.slots, now, gap, |s.slots| - 1);
    assert 240000.0 / tempo / 1000.0 == 8.0 * gap;
  }

  /** For a clamped tempo the next pass is due between 1333 1/3 ms (at 180
      BPM) and 6000 ms (at 40 BPM), and slower tempi wait longer. */
  lemma RescheduleDelayBounds(tempo: real, tempo': real)
    requires MinTempo <= tempo <= tempo' <= MaxTempo
    ensures 4000.0 / 3.0 <= 240000.0 / tempo <= 6000.0
    ensures 240000.0 / tempo' <= 240000.0 / tempo
  {
  }

  /** The ambient particles of the visualisation. */
  datatype Particle = Particle(id: nat, left: real, delay: real, duration: real)

  /** The three `Math.random()` draws one particle consumes. */
  datatype ParticleDraw = ParticleDraw(left: real, delay: real, duration: real)

  predicate UnitDraw(d: ParticleDraw) {
    0.0 <= d.left < 1.0 && 0.0 <= d.delay < 1.0 && 0.0 <= d.duration < 1.0
  }

  /** `createMusicParticles`: exactly `count` particles numbered from 0, at
      0..100% across, starting within 2 s, and lasting at least 1 s and
      less than `1 + 2 * tempo / 120` s (faster music, longer range). */
  method CreateMusicParticles(count: nat, tempo: real, draws: seq<ParticleDraw>) returns (ps: seq<Particle>)
    requires |draws| == count
    requires forall i :: 0 <= i < |draws| ==> UnitDraw(draws[i])
    ensures |ps| == count
    ensures forall i :: 0 <= i < |ps| ==> ps[i].id == i
    ensures forall i :: 0 <= i < |ps| ==> 0.0 <= ps[i].left < 100.0 && 0.0 <= ps[i].delay < 2.0
    ensures forall i :: 0 <= i < |ps| ==> tempo >= 0.0 ==> 1.0 <= ps[i].duration <= 1.0 + 2.0 * tempo / 120.0
    ensures forall i :: 0 <= i < |ps| ==> tempo > 0.0 ==> ps[i].duration < 1.0 + 2.0 * tempo / 120.0
  {
    var speed := tempo / 120.0;
    ps := [];
    for i := 0 to count
      invariant |ps| == i
      invariant forall j :: 0 <= j < i ==> ps[j].id == j
      invariant forall j :: 0 <= j < i ==> 0.0 <= ps[j].left < 100.0 && 0.0 <= ps[j].delay < 2.0
      invariant forall j :: 0 <= j < i ==> tempo >= 0.0 ==> 1.0 <= ps[j].duration <= 1.0 + 2.0 * speed
      invariant forall j :: 0 <= j < i ==> tempo > 0.0 ==> ps[j].duration < 1.0 + 2.0 * speed
    {
      var d := draws[i];
      ScaledDraw(d.left, 100.0);
      ScaledDraw(d.delay, 2.0);
      var spread := 2.0 * speed;
      ScaledDraw(d.duration, spread);
      var particle := Particle(i, d.left * 100.0, d.delay * 2.0, 1.0 + d.duration * 2.0 * speed);
      assert particle.duration == 1.0 + d.duration * spread;
      assert tempo >= 0.0 ==> spread >= 0.0;
      assert tempo >= 0.0 ==> d.duration * spread <= spread;
      assert tempo >= 0.0 ==> 1.0 <= particle.duration;
      assert tempo >= 0.0 ==> particle.duration <= 1.0 + spread;
      ps := ps + [particle];
    }
  }

  /** A draw from [0, 1) scaled by `c >= 0` lies in [0, c], and below `c`
      when `c > 0`. */
  lemma ScaledDraw(u: real, c: real)
    requires 0.0 <= u < 1.0
    ensures c >= 0.0 ==> 0.0 <= u * c <= c
    ensures c > 0.0 ==> u * c < c
  {
  }
}

=== FILE: orchestra_pit.dfy ===
/** The sparkle trail of the orchestra-pit view: each hand position inside
    the frame adds a sparkle to a bounded list, and a periodic tick fades,
    shrinks and ages every sparkle and drops the expired ones. */
module OrchestraPit {
  import opened HandDetection

  /** Position and size in percent / pixels, opacity in [0, 1], and the
      remaining life in ticks of 5. */
  datatype Sparkle = Sparkle(id: real, x: real, y: real, size: real, opacity: real, life: int)

  /** Previous sparkles kept when a new one is added. */
  const Kept: nat := 20
  /** Life of a new sparkle. */
  const FreshLife: int := 100
  /** Life lost per tick. */
  const LifeStep: int := 5

  /** The sparkle for a hand position; `clock` is the wall-clock reading in
      ms and `idDraw`, `sizeDraw` are `Math.random()` draws. */
  function NewSparkle(pos: Position, clock: real, idDraw: real, sizeDraw: real): (s: Sparkle)
    requires 0.0 <= sizeDraw < 1.0
    ensures s.opacity == 1.0 && s.life == FreshLife
    ensures s.x == pos.x * 100.0 && s.y == pos.y * 100.0
    ensures 5.0 <= s.size < 15.0
  {
    Sparkle(clock + idDraw, pos.x * 100.0, pos.y * 100.0, sizeDraw * 10.0 + 5.0, 1.0, FreshLife)
  }

  /** The last `Kept` elements of `s` (all of them when there are fewer),
      as `slice(-20)` does. */
  function LastKept(s: seq<Sparkle>): (r: seq<Sparkle>)
    ensures |r| == if |s| < Kept then |s| else Kept
    ensures r == s[|s| - |r|..]
  {
    if |s| <= Kept then s else s[|s| - Kept..]
  }

  /** Adds a sparkle only for a hand strictly inside the frame (both
      coordinates positive); the list then holds the last 20 previous
      sparkles followed by the new one, so it never exceeds 21. */
  function AddSparkle(prev: seq<Sparkle>, pos: Position, clock: real, idDraw: real, sizeDraw: real): (r: seq<Sparkle>)
    requires 0.0 <= sizeDraw < 1.0
    ensures !(pos.x > 0.0 && pos.y > 0.0) ==> r == prev
    ensures pos.x > 0.0 && pos.y > 0.0 ==>
      && |r| == (if |prev| < Kept then |prev| else Kept) + 1
      && r[..|r| - 1] == prev[|prev| - (|r| - 1)..]
      && r[|r| - 1] == NewSparkle(pos, clock, idDraw, sizeDraw)
    ensures |prev| <= Kept + 1 ==> |r| <= Kept + 1
  {
    if pos.x > 0.0 && pos.y > 0.0 then
      LastKept(prev) + [NewSparkle(pos, clock, idDraw, sizeDraw)]
    else prev
  }

  /** One tick's change to a single sparkle: it keeps its identity and
      place, loses 5 life, and fades and shrinks by a fixed fraction. */
  function Decay(s: Sparkle): (r: Sparkle)
    ensures r.id == s.id && r.x == s.x && r.y == s.y
    ensures r.life == s.life - LifeStep
    ensures 0.0 < s.opacity ==> 0.0 < r.opacity < s.opacity
    ensures 0.0 < s.size ==> 0.0 < r.size < s.size
    ensures s.opacity == 0.0 ==> r.opacity == 0.0
  {
    s.(opacity := s.opacity * 0.95, life := s.life - LifeStep, size := s.size * 0.98)
  }

  /** Whether a sparkle is still alive after this tick. */
  predicate Survives(s: Sparkle) {
    s.life - LifeStep > 0
  }

  /** One animation tick: every sparkle decays, and those whose life has
      reached 0 or less are dropped, keeping the order of the rest. */
  function Tick(sparkles: seq<Sparkle>): (r: seq<Sparkle>)
    ensures |r| <= |sparkles|
    ensures forall i :: 0 <= i < |r| ==> r[i].life > 0
    decreases |sparkles|
  {
    if |sparkles| == 0 then []
    else
      (if Survives(sparkles[0]) then [Decay(sparkles[0])] else []) + Tick(sparkles[1..])
  }

  /** A tick works sparkle by sparkle and keeps the order: ticking a list
      is ticking its parts. */
  lemma {:induction false} TickDistributes(a: seq<Sparkle>, b: seq<Sparkle>)
    ensures Tick(a + b) == Tick(a) + Tick(b)
    decreases |a|
  {
    if |a| == 0 {
      assert a + b == b;
    } else {
      assert (a + b)[0] == a[0] && (a + b)[1..] == a[1..] + b;
      TickDistributes(a[1..], b);
    }
  }

  /** A tick keeps exactly the sparkles whose decremented life is still
      positive, decayed: a sparkle is in the result iff it is the decay of a
      survivor. */
  lemma {:induction false} TickKeepsExactlySurvivors(sparkles: seq<Sparkle>, s: Sparkle)
    ensures s in Tick(sparkles) <==> exists i :: 0 <= i < |sparkles| && Survives(sparkles[i]) && s == Decay(sparkles[i])
    decreases |sparkles|
  {
    if |sparkles| > 0 {
      TickKeepsExactlySurvivors(sparkles[1..], s);
      var head := if Survives(sparkles[0]) then [Decay(sparkles[0])] else [];
      assert s in Tick(sparkles) <==> s in head || s in Tick(sparkles[1..]);
      if s in Tick(sparkles[1..]) {
        var i :| 0 <= i < |sparkles[1..]| && Survives(sparkles[1..][i]) && s == Decay(sparkles[1..][i]);
        assert sparkles[i + 1] == sparkles[1..][i];
      }
      if exists i :: 0 <= i < |sparkles| && Survives(sparkles[i]) && s == Decay(sparkles[i]) {
        var i :| 0 <= i < |sparkles| && Survives(sparkles[i]) && s == Decay(sparkles[i]);
        if i > 0 {
          assert sparkles[1..][i - 1] == sparkles[i];
        }
      }
    }
  }

  /** `n` ticks. */
  function Ticks(sparkles: seq<Sparkle>, n: nat): seq<Sparkle> {
    if n == 0 then sparkles else Tick(Ticks(sparkles, n - 1))
  }

  /** `n` decays of one sparkle. */
  function Decays(s: Sparkle, n: nat): (r: Sparkle)
    ensures r.life == s.life - LifeStep * n
  {
    if n == 0 then s else Decay(Decays(s, n - 1))
  }

  /** A lone sparkle is still there after `n` ticks exactly while its life
      minus `5 * n` is positive. */
  lemma {:induction false} LoneSparkleLifetime(s: Sparkle, n: nat)
    requires s.life > 0
    ensures s.life - LifeStep * n > 0 ==> Ticks([s], n) == [Decays(s, n)]
    ensures s.life - LifeStep * n <= 0 ==> Ticks([s], n) == []
  {
    if n > 0 {
      LoneSparkleLifetime(s, n - 1);
      if s.life - LifeStep * (n - 1) > 0 {
        TickOne(Decays(s, n - 1));
      }
    }
  }

  /** A tick of a single sparkle. */
  lemma TickOne(x: Sparkle)
    ensures Tick([x]) == if Survives(x) then [Decay(x)] else []
  {
    assert [x][1..] == [];
  }

  /** A new sparkle lives through 19 ticks and is gone after the 20th. */
  lemma FreshSparkleLifetime(pos: Position, clock: real, idDraw: real, sizeDraw: real)
    requires 0.0 <= sizeDraw < 1.0
    ensures |Ticks([NewSparkle(pos, clock, idDraw, sizeDraw)], 19)| == 1
    ensures Ticks([NewSparkle(pos, clock, idDraw, sizeDraw)], 20) == []
  {
    var s := NewSparkle(pos, clock, idDraw, sizeDraw);
    LoneSparkleLifetime(s, 19);
    LoneSparkleLifetime(s, 20);
  }
}

=== FILE: wrappers.dfy ===
/** The optional value used wherever the source tests a field against `null`
    or `undefined`. */
module Wrappers {

  datatype Option<+T> = None | Some(value: T)
}
